=== FILE: README.md ===
# Light-cycle search agents in Dafny

A model of the decision core of a two-player light-cycle ("Tron") game. Two
cycles move on a rectangular board of cells holding 0 (empty), 1 or 2 (the
players' trails). The model covers:

- **Grid rules** (`Grid`): board shape, the four directions in UP, DOWN,
  LEFT, RIGHT order, legal-move generation, and the shared game state: board,
  both positions, both move lists and an optional loser.
- **Territory evaluation** (`Connectivity`, `Territory`):
  - the articulation count `find_articulation_points`, which floods the
    opponent's space, removes the candidate cell and counts the pieces left;
  - the Voronoi tally of empty cells closer to one player than the other;
  - `advanced_evaluate`, which combines them with the reachable-space
    difference.
- **Alpha-beta minimax** (`Search`): the fail-soft alpha-beta search of
  `minimax.py`, the hypothetical-move function `simulate_move` and the
  agent's `get_action` loop. `advanced_heuristic.py` repeats the same
  search, move function and move choice line for line and differs only in
  its leaf evaluation. The model therefore defines the search once and
  passes the leaf evaluator `eval` as a parameter. `Search.SpaceEvaluate`
  is the plain agent's evaluator and `Search.AdvancedEvaluate` the advanced
  one.
- **Monte Carlo tree search bookkeeping** (`Mcts`): the tree is an index
  arena, a sequence of nodes with the root at index 0. The model covers
  expansion, selection, random rollouts, backpropagation, the
  most-visited-child decision, and the rollout move rules `apply_move` and
  `is_terminal`.

How the search and the arena are parameterised:

- **Successor function.** The search is written over a successor function
  `next`. The agents use `Search.Successor`. It is `SimulateMove` whenever
  the target is on the board and leaves the state unchanged otherwise, and
  it keeps on-board move lists on the board.
- **Move function.** The arena predicates and the rollout likewise take the
  move function `play`. `Mcts.Search` builds its arena and plays its
  rollouts with `Mcts.ApplyMove`, and guarantees `ValidTree(ApplyMove, tree)`.
  `Mcts.ApplyMoveKeepsTrails` shows that `ApplyMove` keeps every taken cell.
  A rollout with it therefore never erases a trail
  (`Mcts.PlayoutKeepsTrails`).

Correctness notions the proofs rest on:

- **Articulation count.** The loops are related to reference definitions.
  `Connectivity.NumComponents` is the number of connected components of a
  cell set, defined through four-neighbour paths.
- **Alpha-beta.** The reference is plain minimax, `Search.MinimaxValue`.
  The search obeys the fail-soft guarantee: the result is exact inside the
  window, an upper bound at or below `alpha` and a lower bound at or above
  `beta`. With the full window it therefore equals the minimax value.
- **Infinities.** Python's `float('-inf')` and `float('inf')` are the
  extended values `Search.NegInf` and `Search.PosInf`.

Two behaviours of the code are stated as lemmas:

- **Stale opponent move list.** `simulate_move` recomputes only the moving
  player's move list. A simulated reply can therefore step into the cell
  just taken and overwrite the other player's head. On the board
  [[1, 0, 1], [1, 0, 2], [1, 0, 1]], player 1 at (1, 0) moves right. The
  resulting state is no search leaf, and player 2's stale LEFT then writes 2
  over the centre. Both heads end on (1, 1) (`Search.StaleOpponentMoves`).
- **Articulation bonus.** `advanced_evaluate` asks for the split count at
  each player's own position. When that cell holds the player's own id, it
  is never in the opponent's space and the count is 1
  (`Territory.OwnCellNeverSplits`). The bonus is therefore 0 on every state
  where each position holds its owner's id. The stale-list overwrite above
  is the exception. At the leaf it reaches, player 1's head holds 2, so
  player 1's split count is 3 and player 2's is 1
  (`Territory.SharedHeadSplits`). The advanced score there carries a bonus
  of 20 (`Search.StaleLeafBonus`).

The articulation flood starts from the first cell, in row-major order, that
holds the opponent's id (`advanced_heuristic.py` lines 23-36), not from the
opponent's current position. The model follows the code. The two coincide
whenever the opponent's position holds the opponent's id and the opponent's
cells are connected. The stale-list overwrite above is again the exception:
on [[1, 2, 2], [0, 0, 0]], reached when player 2's stale LEFT lands on
player 1's head at (0, 1), player 1's only cell is (0, 0), so its cells are
connected, yet player 1 stands on a cell holding 2. The flood for player 2's
split count starts at (0, 0), whereas a flood from player 1's position would
be empty, since that cell is not open to player 1
(`Territory.OverwrittenHeadFloodStart`).

## Model

| member | source | states |
|---|---|---|
| Grid.SetCell | minimax.py:60 | Writing a player id into one cell keeps the board's dimensions, puts the id in that cell and leaves every other cell as it was |
| Grid.ValidMoves | minimax.py:73-84 | A direction is listed exactly when its target is on the board and empty, and the list follows UP, DOWN, LEFT, RIGHT order without repeats. The same function appears as advanced_heuristic.py lines 182-192 (`get_valid_moves_from_board`, used by the advanced agent's `simulate_move`) and ch5/mcts.py lines 194-205 (`get_valid_moves`, used by `apply_move`); all three copies are this member |
| Grid.CurrentMovesInBounds | advanced_heuristic.py:182-192 | Move lists freshly computed from the board only name on-board targets |
| Connectivity.Flood | advanced_heuristic.py:38-52 | The stack flood only adds cells of the region, keeps what was visited and reaches every stacked cell of the region |
| Connectivity.FloodClosed | advanced_heuristic.py:38-52 | The flooded set is closed under stepping to a neighbour inside the region |
| Connectivity.FloodConnected | advanced_heuristic.py:38-52 | Every flooded cell is joined to the seed by a path through the region |
| Connectivity.FloodIsComponent | advanced_heuristic.py:35-52 | Flooding from a cell of the region yields exactly that cell's connected component |
| Connectivity.FirstIn | advanced_heuristic.py:67 | The cell taken out of the unvisited set is a member of it, comes first in row-major order, and there is none only when the set has no cell on the board |
| Connectivity.CountComponents | advanced_heuristic.py:61-87 | Counts at least one component whenever an unvisited cell is left; `Connectivity.CountIsClasses` and `Connectivity.CountAll` equate the count with the number of connected components |
| Connectivity.CountIsClasses | advanced_heuristic.py:62-87 | Repeatedly taking an unvisited cell and removing its component counts one per connected component met among the unvisited cells |
| Connectivity.CountAll | advanced_heuristic.py:61-87 | Starting with every remaining cell unvisited, the count is the number of connected components of the remaining cells |
| Territory.FirstHolding | advanced_heuristic.py:23-30 | The scan finds a cell holding the id that comes first in row-major order, and finds none exactly when no cell holds the id |
| Territory.FindArticulationPoints | advanced_heuristic.py:9-87 | The split count is at least 1, and is 1 when no cell holds the opponent's id |
| Territory.OpponentFlood | advanced_heuristic.py:35-52 | The flooded opponent space lies on the board; `Territory.OpponentSpaceShape` shows it is exactly the component of the first opponent cell |
| Territory.SplitCount | advanced_heuristic.py:56-59 | The split count is at least 1; `Territory.SplitCountIsComponents` shows it is 1 for an empty remainder and its number of components otherwise |
| Territory.OpponentSpaceShape | advanced_heuristic.py:35-52 | The flooded opponent space is the component of the first opponent cell among cells that are empty or the opponent's; it contains that cell and every member is on the board, open and connected to it |
| Territory.ArticulationCountsComponents | advanced_heuristic.py:54-87 | The split count is the number of connected components of the opponent space without the candidate cell, or 1 when nothing is left |
| Territory.SplitCountIsComponents | advanced_heuristic.py:56-87 | The remainder's count is 1 when it is empty and its number of connected components otherwise |
| Territory.StartOutsideSpace | advanced_heuristic.py:54-59 | Removing a cell that is not in the opponent space splits nothing: the count is 1 |
| Territory.SharedHeadSplits | advanced_heuristic.py:101-104 | On the board [[1, 0, 1], [1, 2, 2], [1, 0, 1]] with both heads on the centre, player 1's split count is 3 and player 2's is 1 |
| Territory.OverwrittenHeadFloodStart | advanced_heuristic.py:23-36 | On the board left by a stale reply onto the opponent's head, the opponent's cells are connected yet the articulation flood starts at the first cell holding the opponent's id, not at the opponent's position, which is not open to the opponent |
| Territory.OwnCellNeverSplits | advanced_heuristic.py:102-103 | Asked at a cell that holds the asking player's own id, the split count is always 1 |
| Territory.GridCells | advanced_heuristic.py:110-111 | The tally visits exactly the board's cells, each once, in strictly row-major order |
| Territory.VoteSumCounts | advanced_heuristic.py:112-118 | The running Voronoi score is the number of empty cells strictly closer to player 1 minus those strictly closer to player 2, and the two counts together never exceed the empty cells |
| Territory.Voronoi | advanced_heuristic.py:106-118 | The Voronoi tally over the whole board; `Territory.VoronoiCounts`, `Territory.VoronoiBounded` and `Territory.VoronoiSwap` state its value, bounds and symmetry |
| Territory.VoronoiCounts | advanced_heuristic.py:106-118 | The board's Voronoi score is the count of cells closer to player 1 minus the count closer to player 2 |
| Territory.VoronoiBounded | advanced_heuristic.py:106-118 | The Voronoi score lies between minus and plus the number of empty cells |
| Territory.VoronoiSwap | advanced_heuristic.py:113-118 | Swapping the two positions negates the Voronoi score |
| Territory.AdvancedEvaluate | advanced_heuristic.py:89-121 | Space difference plus ten times the split-count difference plus half the Voronoi score; `Territory.AdvancedEvaluateOnPlayerCells` and `Search.StaleLeafBonus` state its value with and without own-id heads |
| Territory.AdvancedEvaluateOnPlayerCells | advanced_heuristic.py:89-121 | When both positions hold their owners' ids, the advanced score is the space difference plus half the Voronoi score, and lies within half the empty-cell count of the space difference |
| Search.SimulateMove | minimax.py:51-71 | The mover's position takes one step, the board changes only at the target (which takes the mover's id) and the mover's list is recomputed from the new board; the other player's position, list and the loser entry are untouched; without a move for the named player the state is unchanged; on-board move lists stay on the board |
| Search.Successor | minimax.py:98-99 | A move for `player` goes into that player's action slot of `simulate_move` whenever its target is on the board, and an off-board target leaves the state unchanged; on-board move lists stay on the board |
| Search.StaleOpponentMoves | advanced_heuristic.py:161-180 | From the game state [[1, 0, 1], [1, 0, 2], [1, 0, 1]] with current lists, player 1's move right gives a non-leaf state in which player 2's stale list still offers LEFT, and the reply overwrites player 1's new head with 2, leaving both heads on the centre |
| Search.StaleLeafBonus | advanced_heuristic.py:89-121 | The advanced score of the leaf reached by that stale reply is the space difference plus an articulation bonus of 20 plus half the Voronoi score |
| Search.SpaceEvaluate | minimax.py:15-19 | The plain agent's leaf score, the reachable-space difference; `Search.AdvancedNearSpace` relates it to the advanced score |
| Search.AlphaBeta | minimax.py:21-49 | The alpha-beta search; `Search.AlphaBetaBounds` gives its fail-soft guarantee against plain minimax and `Search.AlphaBetaExact` its exact value for the full window |
| Search.MaxLoop | minimax.py:29-39 | The maximizing loop never returns less than the best score so far, never returns +inf, and returns a finite score once it has searched a move |
| Search.MinLoop | minimax.py:40-49 | The minimizing loop never returns more than the best score so far, never returns -inf, and returns a finite score once it has searched a move |
| Search.MaxChildren | minimax.py:29-39 | The plain maximum over player 1's moves is finite exactly when a move remains, and -inf otherwise |
| Search.MinChildren | minimax.py:40-49 | The plain minimum over player 2's moves is finite exactly when a move remains, and +inf otherwise |
| Search.MaxChildrenIsMax | minimax.py:29-39 | No child of a maximizing node has a minimax value above the node's, and some child attains it |
| Search.MinChildrenIsMin | minimax.py:40-49 | No child of a minimizing node has a minimax value below the node's, and some child attains it |
| Search.MaxCutoffStep | minimax.py:35-38 | A beta cutoff after a searched move keeps the fail-soft guarantee of the maximizing loop |
| Search.MaxContinueStep | minimax.py:35-38 | Raising alpha and carrying on keeps the fail-soft guarantee of the maximizing loop |
| Search.MinCutoffStep | minimax.py:45-48 | An alpha cutoff keeps the fail-soft guarantee of the minimizing loop |
| Search.MinContinueStep | minimax.py:45-48 | Lowering beta and carrying on keeps the fail-soft guarantee of the minimizing loop |
| Search.AlphaBetaBounds | minimax.py:21-49 | For any window with alpha below beta, the search result is the minimax value when strictly inside the window, an upper bound of it at or below alpha, and a lower bound of it at or above beta |
| Search.MaxLoopBounds | minimax.py:29-39 | The maximizing loop, from any position in the move list with its running alpha and best, obeys the fail-soft guarantee against the best of the running best and the remaining children |
| Search.MinLoopBounds | minimax.py:40-49 | The minimizing loop obeys the fail-soft guarantee against the least of the running best and the remaining children |
| Search.AlphaBetaExact | minimax.py:100-101 | Searched with the window (-inf, +inf), alpha-beta returns exactly the minimax value |
| Search.SearchChild | minimax.py:98-101 | One iteration of the agent's loop scores a move with the minimax value of the resulting state |
| Search.GetAction | minimax.py:86-110 | No move exactly when the player's list is empty; otherwise, for players 1 and 2, the move at the first position whose minimax value is best for the player (highest for 1, lowest for 2), since only a strictly better value replaces the current choice; for any other id, the first move |
| Search.AdvancedNearSpace | advanced_heuristic.py:130-132 | On states whose positions hold their owners' ids, the advanced agent's leaf score differs from the plain agent's by half the Voronoi score, at most half the empty-cell count |
| Mcts.ApplyMove | ch5/mcts.py:160-191 | A move off the board or onto a taken cell loses: board and positions unchanged, both lists emptied, loser set to the mover. A legal move writes the mover's id in the target only, moves the mover there, keeps the other position and the loser entry, and recomputes both lists from the new board |
| Mcts.IsTerminal | ch5/mcts.py:153-157 | No value exactly when nobody has lost; otherwise +1 when the root player is the winner and -1 otherwise |
| Mcts.IllegalMoveLoses | ch5/mcts.py:171-181 | A losing move makes the state terminal, scoring -1 when the mover is the root player and +1 when the other player is |
| Mcts.LegalMoveKeepsTrails | ch5/mcts.py:177-183 | A legal move keeps the board's shape, never changes a non-empty cell, and turns only the empty target into the mover's id |
| Mcts.NodeMoves | ch5/mcts.py:28-29 | The moves of the player to move at a node; `Mcts.NewNode` (`untried` is the mover's list) and `Mcts.Expand` (a new child's `untried` is its `NodeMoves`) carry its meaning |
| Mcts.NewNode | ch5/mcts.py:16-32 | A fresh node has no children, no visits, zero value and all moves of the player to move untried, so it is fully expanded exactly when that player has no move |
| Mcts.IsFullyExpanded | ch5/mcts.py:31-32 | A node is fully expanded when no untried move is left; `Mcts.NewNode` and `Mcts.Select` state when this holds |
| Mcts.RootTreeValid | ch5/mcts.py:50 | An arena holding only a fresh root is well formed |
| Mcts.Expand | ch5/mcts.py:96-109 | Expansion pops the last untried move, appends a child made by playing it with the other player to move and the expanded node as parent, records the child as the node's last child, and changes no other node |
| Mcts.ExpandValid | ch5/mcts.py:96-109 | Expansion keeps the arena well formed: parents precede children, untried moves plus children account for the move list, and each child is the state reached by its move |
| Mcts.Select | ch5/mcts.py:76-92 | Selection walks down from the start node along child links, passing only nodes that are non-terminal, fully expanded and have children, and stops at the first node that is not. There it returns the arena unchanged with that node when it is terminal or has neither untried moves nor children, and otherwise returns the arena after expanding that node, with the new child. In particular a non-terminal start node with untried moves is expanded itself. The arena stays well formed, and no node's state or player changes |
| Mcts.Simulate | ch5/mcts.py:115-136 | A rollout returns its final state, reached by a playout of `played` moves, each from a state nobody has lost with a move from the mover's list, players alternating; it plays at most the depth limit and scores 0 exactly when it reaches it; a score of +1 or -1 is the terminal value of the final state, or, when nobody has lost there and the player to move has no move, -1 exactly when that player is the root player |
| Mcts.ApplyMoveKeepsTrails | ch5/mcts.py:160-191 | One move under the game's rules, legal or losing, keeps every taken cell of the board as it was |
| Mcts.PlayoutKeepsTrails | ch5/mcts.py:120-134 | Along any playout whose single moves keep trails, every cell taken at the start holds the same id at the end |
| Mcts.Backpropagate | ch5/mcts.py:143-147 | Exactly the node and its ancestors up to the root gain one visit and the result; states, players and children stay as they were, every other node is unchanged and the arena stays well formed |
| Mcts.SameShapeValid | ch5/mcts.py:143-147 | Changing only visit counts and values keeps an arena well formed |
| Mcts.MostVisited | ch5/mcts.py:64 | The chosen child has the most visits and every earlier child strictly fewer, as the built-in maximum picks the first largest |
| Mcts.Search | ch5/mcts.py:48-64 | No move when the root state already has a loser, and no move exactly then or when the player has no moves; a returned move is one of the player's moves; the final arena is well formed with the root state and player at index 0; with at least one simulation, no loser and a move to make, the root has children; and when the root has children the move is that of its first most-visited child. The random fallback is therefore reached only with no simulations |

## Left out

- The game engine (`TronGame`, the `tron_base.py` module), the tournaments, timing, printing, and the head-to-head driver `htoh.py` are outside this core. `tron_base.py` is not part of this model.
- `flood_fill` belongs to the game base. The evaluators take it as the parameter `fill`, and no property of it is assumed.
- The `nodes_evaluated` counters are instrumentation only and do not affect any result.
- `deepcopy` disappears: states are immutable values.
- Scores are mathematical reals rather than floating point. Infinities are the extended values `NegInf` and `PosInf`.
- The UCB1 formula in `best_child` (square root, logarithm, division) is floating-point arithmetic. `Mcts.Select` moves to an arbitrary child instead, so its guarantees hold whichever child UCB1 picks. Which node the walk stops at therefore depends on that choice, and the contract names the walk taken.
- The rollout's `random.choice` and the fallback `random.choice` in `search` are arbitrary choices from the move list.
- The default depth limit of 200 in `simulate` is a parameter of `Mcts.Simulate`.
- `Mcts.Node` keeps `value` as an integer: it only ever sums -1, 0 and +1.
- `get_action` of the MCTS agent only forwards to `search` and has no separate member.
- Connectivity.FirstIn: `set.pop()` takes an unspecified element. The model takes the first cell in row-major order, and the count is proved for that pick only. The step the count rests on, `Connectivity.RemoveClass`, removes one component for any start cell of the unvisited set, so any other pick gives the same count by the same argument.
- The component count of `find_articulation_points` filters neighbours both when pushing and when popping. The model's flood filters only when popping, which visits the same cells.
- Search.SimulateMove: requires the target to be on the board. Off the board, NumPy indexing would raise an error or wrap a negative index. Move lists built by `get_valid_moves_from_board` never name such a target, and `SimulateMove` keeps them on the board.
- Search.Successor: leaves the state unchanged for an off-board target, where `simulate_move` would index outside the board. On-board move lists never produce such a target.
- Search.GetAction: requires `depth >= 1`. With depth 0 the code searches at depth -1, which never meets the depth-0 leaf test and only stops when a move list runs out.

=== FILE: connectivity.dfy ===
/**
 Four-connectivity over sets of cells: paths, connected components, the
 stack-driven flood fill and the component counter built on it.
 */
module Connectivity {
  import opened Grid

  /** A non-empty walk through `region` whose consecutive cells are four-neighbours. */
  ghost predicate IsPath(path: seq<Pos>, region: set<Pos>)
  {
    && |path| > 0
    && (forall i :: 0 <= i < |path| ==> path[i] in region)
    && (forall i :: 0 < i < |path| ==> Adjacent(path[i - 1], path[i]))
  }

  ghost predicate Connected(region: set<Pos>, a: Pos, b: Pos)
  {
    exists path :: IsPath(path, region) && path[0] == a && path[|path| - 1] == b
  }

  /** The connected component of `a` inside `region`. */
  ghost function ComponentOf(region: set<Pos>, a: Pos): set<Pos>
  {
    set b | b in region && Connected(region, a, b)
  }

  /** The distinct components met by the cells of `cells`. */
  ghost function Classes(region: set<Pos>, cells: set<Pos>): set<set<Pos>>
  {
    set a | a in cells :: ComponentOf(region, a)
  }

  /** Number of four-connected components of `region`. */
  ghost function NumComponents(region: set<Pos>): nat
  {
    |Classes(region, region)|
  }

  /** `cells` is a union of whole components of `region`. */
  ghost predicate Saturated(region: set<Pos>, cells: set<Pos>)
  {
    forall a :: a in cells ==> ComponentOf(region, a) <= cells
  }

  /** No region cell next to a cell of `c` lies outside `c`. */
  ghost predicate Closed(region: set<Pos>, c: set<Pos>)
  {
    forall v, n :: v in c && n in region && Adjacent(v, n) ==> n in c
  }

  // ---------------------------------------------------------------------
  // Connectivity is an equivalence relation on the region
  // ---------------------------------------------------------------------

  lemma AdjacentSymmetric(a: Pos, b: Pos)
    requires Adjacent(a, b)
    ensures Adjacent(b, a)
  {
  }

  lemma ConnectedRefl(region: set<Pos>, a: Pos)
    requires a in region
    ensures Connected(region, a, a)
  {
    assert IsPath([a], region);
  }

  lemma ConnectedExtend(region: set<Pos>, a: Pos, v: Pos, n: Pos)
    requires Connected(region, a, v)
    requires n in region && Adjacent(v, n)
    ensures Connected(region, a, n)
  {
    var path :| IsPath(path, region) && path[0] == a && path[|path| - 1] == v;
    var path' := path + [n];
    assert IsPath(path', region);
    assert path'[|path'| - 1] == n;
  }

  function Reverse(s: seq<Pos>): (r: seq<Pos>)
    ensures |r| == |s|
    ensures forall i :: 0 <= i < |s| ==> r[i] == s[|s| - 1 - i]
  {
    if |s| == 0 then [] else Reverse(s[1..]) + [s[0]]
  }

  lemma ConnectedSym(region: set<Pos>, a: Pos, b: Pos)
    requires Connected(region, a, b)
    ensures Connected(region, b, a)
  {
    var path :| IsPath(path, region) && path[0] == a && path[|path| - 1] == b;
    var r := Reverse(path);
    forall i | 0 < i < |r|
      ensures Adjacent(r[i - 1], r[i])
    {
      AdjacentSymmetric(path[|path| - 1 - i], path[|path| - i]);
    }
    assert IsPath(r, region);
  }

  lemma ConnectedTrans(region: set<Pos>, a: Pos, b: Pos, c: Pos)
    requires Connected(region, a, b) && Connected(region, b, c)
    ensures Connected(region, a, c)
  {
    var p :| IsPath(p, region) && p[0] == a && p[|p| - 1] == b;
    var q :| IsPath(q, region) && q[0] == b && q[|q| - 1] == c;
    var pq := p + q[1..];
    forall i | 0 < i < |pq|
      ensures Adjacent(pq[i - 1], pq[i])
    {
      if i >= |p| {
        assert pq[i] == q[i - |p| + 1];
        assert pq[i - 1] == q[i - |p|];
      }
    }
    assert IsPath(pq, region);
  }

  lemma ComponentOfConnected(region: set<Pos>, a: Pos, b: Pos)
    requires Connected(region, a, b)
    ensures ComponentOf(region, a) == ComponentOf(region, b)
  {
    forall x | x in ComponentOf(region, a)
      ensures x in ComponentOf(region, b)
    {
      ConnectedSym(region, a, b);
      ConnectedTrans(region, b, a, x);
    }
    forall x | x in ComponentOf(region, b)
      ensures x in ComponentOf(region, a)
    {
      ConnectedTrans(region, a, b, x);
    }
  }

  /** A closed set that holds the start of a path holds its end. */
  lemma {:induction false} ClosedHoldsPath(region: set<Pos>, c: set<Pos>, path: seq<Pos>)
    requires Closed(region, c)
    requires IsPath(path, region)
    requires path[0] in c
    ensures path[|path| - 1] in c
    decreases |path|
  {
    if |path| > 1 {
      var prefix := path[..|path| - 1];
      assert IsPath(prefix, region);
      ClosedHoldsPath(region, c, prefix);
      assert Adjacent(path[|path| - 2], path[|path| - 1]);
    }
  }

  // ---------------------------------------------------------------------
  // Flood fill
  // ---------------------------------------------------------------------

  function Neighbours(p: Pos): seq<Pos>
  {
    [Step(p, Up), Step(p, Down), Step(p, Left), Step(p, Right)]
  }

  /**
   Depth-first flood fill with an explicit stack: pop the last cell, skip it
   when already visited or outside `region`, otherwise visit it and push its
   four neighbours in UP, DOWN, LEFT, RIGHT order.
   */
  function Flood(region: set<Pos>, visited: set<Pos>, stack: seq<Pos>): (r: set<Pos>)
    requires visited <= region
    ensures visited <= r <= region
    ensures forall q :: q in stack && q in region ==> q in r
    decreases region - visited, |stack|
  {
    if |stack| == 0 then visited
    else
      var pos := stack[|stack| - 1];
      var rest := stack[..|stack| - 1];
      assert forall q :: q in stack ==> q == pos || q in rest;
      if pos in visited || pos !in region then Flood(region, visited, rest)
      else Flood(region, visited + {pos}, rest + Neighbours(pos))
  }

  /** Every region neighbour of a visited cell is visited or still on the stack. */
  ghost predicate Frontier(region: set<Pos>, visited: set<Pos>, stack: seq<Pos>)
  {
    forall v, n :: v in visited && n in region && Adjacent(v, n) ==> n in visited || n in stack
  }

  lemma {:induction false} FloodClosed(region: set<Pos>, visited: set<Pos>, stack: seq<Pos>)
    requires visited <= region
    requires Frontier(region, visited, stack)
    ensures Closed(region, Flood(region, visited, stack))
    decreases region - visited, |stack|
  {
    if |stack| > 0 {
      var pos := stack[|stack| - 1];
      var rest := stack[..|stack| - 1];
      assert forall q :: q in stack ==> q == pos || q in rest;
      if pos in visited || pos !in region {
        FloodClosed(region, visited, rest);
      } else {
        var stack' := rest + Neighbours(pos);
        forall v, n | v in visited + {pos} && n in region && Adjacent(v, n)
          ensures n in visited + {pos} || n in stack'
        {
          if v == pos {
            assert n in Neighbours(pos);
          }
        }
        FloodClosed(region, visited + {pos}, stack');
      }
    }
  }

  lemma {:induction false} FloodConnected(region: set<Pos>, src: Pos, visited: set<Pos>, stack: seq<Pos>)
    requires visited <= region
    requires forall v :: v in visited ==> Connected(region, src, v)
    requires forall q :: q in stack && q in region ==> Connected(region, src, q)
    ensures forall v :: v in Flood(region, visited, stack) ==> Connected(region, src, v)
    decreases region - visited, |stack|
  {
    if |stack| > 0 {
      var pos := stack[|stack| - 1];
      var rest := stack[..|stack| - 1];
      if pos in visited || pos !in region {
        FloodConnected(region, src, visited, rest);
      } else {
        var stack' := rest + Neighbours(pos);
        forall q | q in stack' && q in region
          ensures Connected(region, src, q)
        {
          if q !in rest {
            ConnectedExtend(region, src, pos, q);
          }
        }
        FloodConnected(region, src, visited + {pos}, stack');
      }
    }
  }

  /** Flood fill from a region cell visits exactly that cell's component. */
  lemma FloodIsComponent(region: set<Pos>, s: Pos)
    requires s in region
    ensures Flood(region, {}, [s]) == ComponentOf(region, s)
  {
    var f := Flood(region, {}, [s]);
    ConnectedRefl(region, s);
    FloodConnected(region, s, {}, [s]);
    FloodClosed(region, {}, [s]);
    forall x | x in ComponentOf(region, s)
      ensures x in f
    {
      var path :| IsPath(path, region) && path[0] == s && path[|path| - 1] == x;
      ClosedHoldsPath(region, f, path);
    }
  }

  // ---------------------------------------------------------------------
  // Component counting
  // ---------------------------------------------------------------------

  predicate InRect(h: nat, w: nat, q: Pos)
  {
    0 <= q.row < h && 0 <= q.col < w
  }

  /** `q` comes no later than `p` in row-major order. */
  predicate AtOrAfter(q: Pos, row: int, col: int)
  {
    q.row > row || (q.row == row && q.col >= col)
  }

  /**
   Row-major scan of the `h` by `w` rectangle from `(row, col)` for the first
   cell that belongs to `s`.
   */
  function Scan(h: nat, w: nat, s: set<Pos>, row: nat, col: nat): (r: Option<Pos>)
    requires col <= w
    ensures r.Some? ==> r.value in s && InRect(h, w, r.value) && AtOrAfter(r.value, row, col)
    ensures r.Some? ==> forall q :: q in s && InRect(h, w, q) && AtOrAfter(q, row, col) ==> AtOrAfter(q, r.value.row, r.value.col)
    ensures r.None? <==> forall q :: q in s && InRect(h, w, q) ==> !AtOrAfter(q, row, col)
    decreases h - row, w - col
  {
    if row >= h then None
    else if col == w then Scan(h, w, s, row + 1, 0)
    else if Pos(row, col) in s then Some(Pos(row, col))
    else Scan(h, w, s, row, col + 1)
  }

  /** The first cell of `s` in row-major order over the `h` by `w` rectangle. */
  function FirstIn(h: nat, w: nat, s: set<Pos>): (r: Option<Pos>)
    ensures r.Some? ==> r.value in s && InRect(h, w, r.value)
    ensures r.Some? ==> forall q :: q in s && InRect(h, w, q) ==> AtOrAfter(q, r.value.row, r.value.col)
    ensures r.None? <==> forall q :: q in s ==> !InRect(h, w, q)
  {
    Scan(h, w, s, 0, 0)
  }

  /**
   Count the components of `region` met by `unvisited`: take a start cell,
   flood its component, drop it from `unvisited`, repeat.
   */
  function CountComponents(h: nat, w: nat, region: set<Pos>, unvisited: set<Pos>): (r: nat)
    requires unvisited <= region
    requires forall q :: q in unvisited ==> InRect(h, w, q)
    ensures unvisited != {} ==> r >= 1
    decreases unvisited
  {
    match FirstIn(h, w, unvisited)
    case None => 0
    case Some(start) =>
      var component := Flood(region, {}, [start]);
      1 + CountComponents(h, w, region, unvisited - component)
  }

  /** Removing one whole component from a saturated set removes exactly one class. */
  lemma RemoveClass(region: set<Pos>, cells: set<Pos>, start: Pos)
    requires cells <= region && start in cells
    requires Saturated(region, cells)
    ensures Saturated(region, cells - ComponentOf(region, start))
    ensures Classes(region, cells - ComponentOf(region, start))
         == Classes(region, cells) - {ComponentOf(region, start)}
    ensures ComponentOf(region, start) in Classes(region, cells)
  {
    var c := ComponentOf(region, start);
    var rest := cells - c;
    forall a | a in rest
      ensures ComponentOf(region, a) <= rest
      ensures ComponentOf(region, a) != c
    {
      ConnectedRefl(region, a);
      assert a in ComponentOf(region, a);
      forall x | x in ComponentOf(region, a)
        ensures x !in c
      {
        if x in c {
          ConnectedSym(region, a, x);
          ConnectedTrans(region, start, x, a);
        }
      }
    }
    forall k | k in Classes(region, cells) - {c}
      ensures k in Classes(region, rest)
    {
      var a :| a in cells && k == ComponentOf(region, a);
      if a in c {
        ComponentOfConnected(region, start, a);
      }
    }
  }

  lemma {:induction false} CountIsClasses(h: nat, w: nat, region: set<Pos>, unvisited: set<Pos>)
    requires unvisited <= region
    requires forall q :: q in unvisited ==> InRect(h, w, q)
    requires Saturated(region, unvisited)
    ensures CountComponents(h, w, region, unvisited) == |Classes(region, unvisited)|
    decreases unvisited
  {
    if unvisited != {} {
      var start := FirstIn(h, w, unvisited).value;
      FloodIsComponent(region, start);
      RemoveClass(region, unvisited, start);
      CountIsClasses(h, w, region, unvisited - ComponentOf(region, start));
    }
  }

  /** Counting the components of a region from all its cells yields the component count. */
  lemma CountAll(h: nat, w: nat, region: set<Pos>)
    requires forall q :: q in region ==> InRect(h, w, q)
    ensures CountComponents(h, w, region, region) == NumComponents(region)
  {
    CountIsClasses(h, w, region, region);
  }
}

=== FILE: grid.dfy ===
/**
 The light-cycle grid: cells, positions, the four move directions, legal-move
 generation and the game-state record that the search agents pass around.
 */
module Grid {

  datatype Option<T> = None | Some(value: T)

  /** A cell coordinate, row first, like the agents' `(y, x)` position tuples. */
  datatype Pos = Pos(row: int, col: int)

  datatype Dir = Up | Down | Left | Right

  /** Position in the `directions` dict of `simulate_move` and `get_valid_moves_from_board`: UP, DOWN, LEFT, RIGHT. */
  function Rank(d: Dir): nat
  {
    match d
    case Up => 0
    case Down => 1
    case Left => 2
    case Right => 3
  }

  /** The unit step of a direction: UP (-1, 0), DOWN (1, 0), LEFT (0, -1), RIGHT (0, 1). */
  function Step(p: Pos, d: Dir): Pos
  {
    match d
    case Up => Pos(p.row - 1, p.col)
    case Down => Pos(p.row + 1, p.col)
    case Left => Pos(p.row, p.col - 1)
    case Right => Pos(p.row, p.col + 1)
  }

  /** Four-neighbourhood, the only connectivity the game uses. */
  predicate Adjacent(a: Pos, b: Pos)
  {
    b == Step(a, Up) || b == Step(a, Down) || b == Step(a, Left) || b == Step(a, Right)
  }

  predicate IsRectangular(g: seq<seq<int>>)
  {
    forall i :: 0 <= i < |g| ==> |g[i]| == |g[0]|
  }

  /** A board of cell owners: 0 empty, 1 and 2 the players' trails. */
  type Board = g: seq<seq<int>> | IsRectangular(g) witness []

  function Height(b: Board): nat { |b| }

  function Width(b: Board): nat { if |b| == 0 then 0 else |b[0]| }

  predicate InBounds(b: Board, p: Pos)
  {
    0 <= p.row < Height(b) && 0 <= p.col < Width(b)
  }

  function Cell(b: Board, p: Pos): int
    requires InBounds(b, p)
  {
    b[p.row][p.col]
  }

  /** A cell a player may move into: on the board and empty. */
  predicate IsFree(b: Board, p: Pos)
  {
    InBounds(b, p) && Cell(b, p) == 0
  }

  /** `b'` is `b` with the single cell `t` overwritten by `v`. */
  ghost predicate OnlyCellChanged(b: Board, b': Board, t: Pos, v: int)
  {
    && Height(b') == Height(b)
    && Width(b') == Width(b)
    && InBounds(b, t)
    && Cell(b', t) == v
    && forall q :: InBounds(b, q) && q != t ==> Cell(b', q) == Cell(b, q)
  }

  function SetCell(b: Board, t: Pos, v: int): (r: Board)
    requires InBounds(b, t)
    ensures OnlyCellChanged(b, r, t, v)
  {
    var row := b[t.row][t.col := v];
    assert |row| == |b[0]|;
    b[t.row := row]
  }

  /**
   The legal moves from `p`: the directions, in UP, DOWN, LEFT, RIGHT order,
   whose target is on the board and empty.
   */
  function ValidMoves(b: Board, p: Pos): (r: seq<Dir>)
    ensures forall d :: d in r <==> IsFree(b, Step(p, d))
    ensures forall i, j :: 0 <= i < j < |r| ==> Rank(r[i]) < Rank(r[j])
  {
    var right := FreeStep(b, p, Right);
    var left := FreeStep(b, p, Left) + right;
    RankOrderedCons(FreeStep(b, p, Left), right, 2);
    var down := FreeStep(b, p, Down) + left;
    RankOrderedCons(FreeStep(b, p, Down), left, 1);
    RankOrderedCons(FreeStep(b, p, Up), down, 0);
    FreeStep(b, p, Up) + down
  }

  /** `[d]` when the step in direction `d` is free, otherwise nothing. */
  function FreeStep(b: Board, p: Pos, d: Dir): (r: seq<Dir>)
    ensures forall e :: e in r <==> e == d && IsFree(b, Step(p, d))
    ensures |r| <= 1
  {
    if IsFree(b, Step(p, d)) then [d] else []
  }

  /** Putting a move of rank `k` before strictly higher-ranked, rank-ordered moves keeps the order. */
  lemma RankOrderedCons(h: seq<Dir>, t: seq<Dir>, k: nat)
    requires |h| <= 1 && forall d :: d in h ==> Rank(d) == k
    requires forall d :: d in t ==> Rank(d) > k
    requires forall i, j :: 0 <= i < j < |t| ==> Rank(t[i]) < Rank(t[j])
    ensures forall i, j :: 0 <= i < j < |h + t| ==> Rank((h + t)[i]) < Rank((h + t)[j])
  {
    forall i, j | 0 <= i < j < |h + t|
      ensures Rank((h + t)[i]) < Rank((h + t)[j])
    {
      if i < |h| {
        assert h[i] in h && t[j - |h|] in t;
      }
    }
  }

  /** Every move of `moves` stays on the board when taken from `p`. */
  predicate AllInBounds(b: Board, p: Pos, moves: seq<Dir>)
  {
    forall i :: 0 <= i < |moves| ==> InBounds(b, Step(p, moves[i]))
  }

  /**
   The state dictionary the agents share: board, both positions, both move
   lists and the optional `loser` entry.
   */
  datatype State = State(
    board: Board,
    p1: Pos,
    p2: Pos,
    p1Moves: seq<Dir>,
    p2Moves: seq<Dir>,
    loser: Option<int>)

  /** Player 1's entry for player 1 and player 2's for any other id, as `get_action` picks `p1_moves` or `p2_moves`. */
  function PosOf(s: State, player: int): Pos
  {
    if player == 1 then s.p1 else s.p2
  }

  function MovesOf(s: State, player: int): seq<Dir>
  {
    if player == 1 then s.p1Moves else s.p2Moves
  }

  /** The move lists name only on-board targets (they may be stale, but never leave the board). */
  predicate MovesInBounds(s: State)
  {
    AllInBounds(s.board, s.p1, s.p1Moves) && AllInBounds(s.board, s.p2, s.p2Moves)
  }

  /** The move lists are exactly the legal moves of the current board. */
  predicate MovesCurrent(s: State)
  {
    s.p1Moves == ValidMoves(s.board, s.p1) && s.p2Moves == ValidMoves(s.board, s.p2)
  }

  lemma CurrentMovesInBounds(s: State)
    requires MovesCurrent(s)
    ensures MovesInBounds(s)
  {
    forall i | 0 <= i < |s.p1Moves|
      ensures InBounds(s.board, Step(s.p1, s.p1Moves[i]))
    {
      assert s.p1Moves[i] in ValidMoves(s.board, s.p1);
    }
    forall i | 0 <= i < |s.p2Moves|
      ensures InBounds(s.board, Step(s.p2, s.p2Moves[i]))
    {
      assert s.p2Moves[i] in ValidMoves(s.board, s.p2);
    }
  }
}

=== FILE: mcts.dfy ===
/**
 Monte Carlo tree search bookkeeping. The tree is an arena: a sequence of
 nodes, the root at index 0, each node naming its parent and children by
 index. The UCB1 child choice and the random rollout moves are left as
 choices among the allowed candidates.
 */
module Mcts {
  import opened Grid

  // ---------------------------------------------------------------------
  // Game rules used by the rollouts
  // ---------------------------------------------------------------------

  /**
   Plays `action` for `player` (player 1's entries for id 1, player 2's
   otherwise). A target off the board or not empty loses: both move lists
   are emptied and `loser` is set. A legal target takes the player's id, the
   player moves there and both move lists are recomputed.
   */
  function ApplyMove(s: State, action: Dir, player: int): (r: State)
    ensures !IsFree(s.board, Step(PosOf(s, player), action)) ==>
              && r.board == s.board && r.p1 == s.p1 && r.p2 == s.p2
              && r.p1Moves == [] && r.p2Moves == [] && r.loser == Some(player)
    ensures IsFree(s.board, Step(PosOf(s, player), action)) ==>
              && OnlyCellChanged(s.board, r.board, Step(PosOf(s, player), action), player)
              && PosOf(r, player) == Step(PosOf(s, player), action)
              && (player == 1 ==> r.p2 == s.p2)
              && (player != 1 ==> r.p1 == s.p1)
              && MovesCurrent(r)
              && r.loser == s.loser
  {
    var target := Step(PosOf(s, player), action);
    if !IsFree(s.board, target) then
      s.(p1Moves := [], p2Moves := [], loser := Some(player))
    else
      var board := SetCell(s.board, target, player);
      var p1 := if player == 1 then target else s.p1;
      var p2 := if player == 1 then s.p2 else target;
      s.(board := board, p1 := p1, p2 := p2, p1Moves := ValidMoves(board, p1), p2Moves := ValidMoves(board, p2))
  }

  /**
   The score of a finished state from the root player's side: +1 when the
   other player lost, -1 otherwise; `None` while nobody has lost.
   */
  function IsTerminal(s: State, rootPlayer: int): (r: Option<int>)
    ensures r.None? <==> s.loser.None?
    ensures r.Some? ==> (r.value == 1 <==> 3 - s.loser.value == rootPlayer)
    ensures r.Some? ==> r.value == 1 || r.value == -1
  {
    match s.loser
    case None => None
    case Some(loser) => if 3 - loser == rootPlayer then Some(1) else Some(-1)
  }

  /** A losing move ends the game: the state is terminal and scores -1 for the root player's own loss. */
  lemma IllegalMoveLoses(s: State, action: Dir, player: int, rootPlayer: int)
    requires !IsFree(s.board, Step(PosOf(s, player), action))
    requires player == 1 || player == 2
    ensures IsTerminal(ApplyMove(s, action, player), rootPlayer)
              == Some(if player == rootPlayer then -1 else if 3 - player == rootPlayer then 1 else -1)
  {
  }

  /** A legal move never overwrites a trail: every non-empty cell keeps its owner, and one empty cell is taken. */
  lemma LegalMoveKeepsTrails(s: State, action: Dir, player: int, q: Pos)
    requires IsFree(s.board, Step(PosOf(s, player), action))
    requires InBounds(s.board, q)
    ensures InBounds(ApplyMove(s, action, player).board, q)
    ensures Cell(s.board, q) != 0 ==> Cell(ApplyMove(s, action, player).board, q) == Cell(s.board, q)
    ensures q == Step(PosOf(s, player), action) ==> Cell(s.board, q) == 0 && Cell(ApplyMove(s, action, player).board, q) == player
  {
  }

  // ---------------------------------------------------------------------
  // Nodes and the arena
  // ---------------------------------------------------------------------

  /**
   A search node: its state, the player to move, parent and move that led
   here, children by arena index, visit count, summed rollout results and
   the moves not expanded yet.
   */
  datatype Node = Node(
    state: State,
    player: int,
    parent: Option<nat>,
    move: Option<Dir>,
    children: seq<nat>,
    visits: int,
    value: int,
    untried: seq<Dir>)

  /** The moves of the player to move at `n`: player 1's list for id 1, player 2's otherwise. */
  function NodeMoves(n: Node): seq<Dir>
  {
    MovesOf(n.state, n.player)
  }

  /** A fresh node: no children, no visits, every move of the player to move still untried. */
  function NewNode(s: State, player: int, parent: Option<nat>, move: Option<Dir>): (r: Node)
    ensures r.untried == MovesOf(s, player) && r.children == []
    ensures r.visits == 0 && r.value == 0
    ensures IsFullyExpanded(r) <==> |MovesOf(s, player)| == 0
  {
    Node(s, player, parent, move, [], 0, 0, MovesOf(s, player))
  }

  predicate IsFullyExpanded(n: Node)
  {
    |n.untried| == 0
  }

  /**
   The `j`-th child of node `i`: a later node whose parent is `i`, reached
   by playing (with `play`) the `j`-th move popped from the end of `i`'s
   move list, with the other player to move. The agent's arena plays
   `ApplyMove`.
   */
  ghost predicate ChildOk(play: (State, Dir, int) -> State, tree: seq<Node>, i: nat, j: nat)
    requires i < |tree| && j < |tree[i].children|
  {
    && i < tree[i].children[j] < |tree|
    && j < |NodeMoves(tree[i])|
    && tree[tree[i].children[j]].parent == Some(i)
    && tree[tree[i].children[j]].move == Some(NodeMoves(tree[i])[|NodeMoves(tree[i])| - 1 - j])
    && tree[tree[i].children[j]].player == 3 - tree[i].player
    && tree[tree[i].children[j]].state == play(tree[i].state, NodeMoves(tree[i])[|NodeMoves(tree[i])| - 1 - j], tree[i].player)
  }

  /**
   Node `i` is well formed: only the root lacks a parent, untried moves are
   a prefix of the move list, untried moves and children together account
   for the whole list, and every child is as expansion made it.
   */
  ghost predicate NodeOk(play: (State, Dir, int) -> State, tree: seq<Node>, i: nat)
    requires i < |tree|
  {
    && (i == 0 <==> tree[i].parent.None?)
    && |tree[i].untried| + |tree[i].children| == |NodeMoves(tree[i])|
    && tree[i].untried == NodeMoves(tree[i])[..|tree[i].untried|]
    && forall j :: 0 <= j < |tree[i].children| ==> ChildOk(play, tree, i, j)
  }

  /**
   The arena is well formed: it has a root, parents come earlier and every
   node is well formed.
   */
  ghost predicate ValidTree(play: (State, Dir, int) -> State, tree: seq<Node>)
  {
    && |tree| > 0
    && ParentsEarlier(tree)
    && forall i :: 0 <= i < |tree| ==> NodeOk(play, tree, i)
  }

  /** Every node's parent comes earlier in the arena. */
  ghost predicate ParentsEarlier(tree: seq<Node>)
  {
    forall k :: 0 <= k < |tree| && tree[k].parent.Some? ==> tree[k].parent.value < k
  }

  /** Two arenas that differ at most in visit counts and values. */
  ghost predicate SameShape(tree: seq<Node>, tree': seq<Node>)
  {
    && |tree'| == |tree|
    && forall k :: 0 <= k < |tree| ==> tree'[k] == tree[k].(visits := tree'[k].visits, value := tree'[k].value)
  }

  lemma SameShapeValid(play: (State, Dir, int) -> State, tree: seq<Node>, tree': seq<Node>)
    requires ValidTree(play, tree) && SameShape(tree, tree')
    ensures ValidTree(play, tree')
  {
    forall i | 0 <= i < |tree'|
      ensures NodeOk(play, tree', i)
    {
      assert NodeOk(play, tree, i);
      forall j | 0 <= j < |tree'[i].children|
        ensures ChildOk(play, tree', i, j)
      {
        assert ChildOk(play, tree, i, j);
      }
    }
  }

  /** A one-node arena holding a fresh root is well formed. */
  lemma RootTreeValid(play: (State, Dir, int) -> State, s: State, player: int)
    ensures ValidTree(play, [NewNode(s, player, None, None)])
  {
    var tree := [NewNode(s, player, None, None)];
    assert NodeOk(play, tree, 0);
  }

  // ---------------------------------------------------------------------
  // Expansion
  // ---------------------------------------------------------------------

  /**
   Expands node `i`: pops its last untried move, plays it, and appends the
   resulting child at the end of the arena. Returns the new arena and the
   child's index.
   */
  function Expand(play: (State, Dir, int) -> State, tree: seq<Node>, i: nat): (r: (seq<Node>, nat))
    requires i < |tree| && |tree[i].untried| > 0
    ensures |r.0| == |tree| + 1 && r.1 == |tree|
    ensures r.0[i] == tree[i].(untried := tree[i].untried[..|tree[i].untried| - 1],
                               children := tree[i].children + [r.1])
    ensures forall k :: 0 <= k < |tree| && k != i ==> r.0[k] == tree[k]
    ensures r.0[r.1].parent == Some(i) && r.0[r.1].player == 3 - tree[i].player
    ensures r.0[r.1].move == Some(tree[i].untried[|tree[i].untried| - 1])
    ensures r.0[r.1].state == play(tree[i].state, tree[i].untried[|tree[i].untried| - 1], tree[i].player)
    ensures r.0[r.1].children == [] && r.0[r.1].visits == 0 && r.0[r.1].value == 0
    ensures r.0[r.1].untried == NodeMoves(r.0[r.1])
  {
    var n := tree[i];
    var move := n.untried[|n.untried| - 1];
    var child := NewNode(play(n.state, move, n.player), 3 - n.player, Some(i), Some(move));
    var c := |tree|;
    (tree[i := n.(untried := n.untried[..|n.untried| - 1], children := n.children + [c])] + [child], c)
  }

  /** Expansion keeps the arena well formed. */
  lemma ExpandValid(play: (State, Dir, int) -> State, tree: seq<Node>, i: nat)
    requires ValidTree(play, tree) && i < |tree| && |tree[i].untried| > 0
    ensures ValidTree(play, Expand(play, tree, i).0)
  {
    var t := Expand(play, tree, i).0;
    forall k | 0 <= k < |t|
      ensures NodeOk(play, t, k)
    {
      if k == |tree| {
        ExpandNewNodeOk(play, tree, i);
      } else {
        ExpandOldNodeOk(play, tree, i, k);
      }
    }
  }

  lemma ExpandNewNodeOk(play: (State, Dir, int) -> State, tree: seq<Node>, i: nat)
    requires ValidTree(play, tree) && i < |tree| && |tree[i].untried| > 0
    ensures NodeOk(play, Expand(play, tree, i).0, |tree|)
  {
    var t := Expand(play, tree, i).0;
    assert t[|tree|].untried == NodeMoves(t[|tree|])[..|t[|tree|].untried|];
  }

  lemma ExpandOldNodeOk(play: (State, Dir, int) -> State, tree: seq<Node>, i: nat, k: nat)
    requires ValidTree(play, tree) && i < |tree| && |tree[i].untried| > 0 && k < |tree|
    ensures NodeOk(play, Expand(play, tree, i).0, k)
  {
    var t := Expand(play, tree, i).0;
    assert NodeOk(play, tree, k);
    assert NodeMoves(t[k]) == NodeMoves(tree[k]);
    forall j | 0 <= j < |t[k].children|
      ensures ChildOk(play, t, k, j)
    {
      if k == i && j == |tree[i].children| {
        ExpandNewChildOk(play, tree, i);
      } else {
        assert ChildOk(play, tree, k, j);
        ExpandOldChildOk(play, tree, i, k, j);
      }
    }
    if k == i {
      assert t[i].untried == NodeMoves(t[i])[..|t[i].untried|];
    }
  }

  lemma ExpandNewChildOk(play: (State, Dir, int) -> State, tree: seq<Node>, i: nat)
    requires ValidTree(play, tree) && i < |tree| && |tree[i].untried| > 0
    ensures |tree[i].children| < |Expand(play, tree, i).0[i].children|
    ensures ChildOk(play, Expand(play, tree, i).0, i, |tree[i].children|)
  {
    assert NodeOk(play, tree, i);
    var m := NodeMoves(tree[i]);
    assert tree[i].untried[|tree[i].untried| - 1] == m[|m| - 1 - |tree[i].children|];
  }

  lemma ExpandOldChildOk(play: (State, Dir, int) -> State, tree: seq<Node>, i: nat, k: nat, j: nat)
    requires i < |tree| && |tree[i].untried| > 0 && k < |tree|
    requires j < |tree[k].children| && ChildOk(play, tree, k, j)
    ensures j < |Expand(play, tree, i).0[k].children|
    ensures ChildOk(play, Expand(play, tree, i).0, k, j)
  {
    var t := Expand(play, tree, i).0;
    var c := tree[k].children[j];
    var m := NodeMoves(tree[k]);
    assert t[k].children[j] == c;
    assert NodeMoves(t[k]) == m by {
      assert t[k].state == tree[k].state && t[k].player == tree[k].player;
    }
    assert t[c].parent == Some(k) && t[c].move == Some(m[|m| - 1 - j]) by {
      assert t[c].parent == tree[c].parent && t[c].move == tree[c].move;
    }
    assert t[c].player == 3 - t[k].player by {
      assert t[c].player == tree[c].player && t[k].player == tree[k].player;
    }
    assert t[c].state == play(t[k].state, m[|m| - 1 - j], t[k].player) by {
      assert t[c].state == tree[c].state;
      assert t[k].state == tree[k].state && t[k].player == tree[k].player;
    }
  }



  // ---------------------------------------------------------------------
  // Selection
  // ---------------------------------------------------------------------

  /**
   `path` is a walk down the arena along child links on which every node
   but the last is non-terminal, fully expanded and has the next node among
   its children: the nodes the selection passes on its way down.
   */
  ghost predicate Descent(tree: seq<Node>, rootPlayer: int, path: seq<nat>)
  {
    && |path| > 0
    && (forall i :: 0 <= i < |path| ==> path[i] < |tree|)
    && (forall i :: 0 <= i < |path| - 1 ==>
          && IsTerminal(tree[path[i]].state, rootPlayer).None?
          && IsFullyExpanded(tree[path[i]])
          && path[i + 1] in tree[path[i]].children)
  }

  /** The last element of a non-empty sequence. */
  function Last(path: seq<nat>): nat
    requires |path| > 0
  {
    path[|path| - 1]
  }

  /**
   Walks down from `start` along `path`, moving to some child (the UCB1
   choice) while the node is non-terminal, fully expanded and has children.
   At the node where the walk stops it returns a terminal node, or a node
   with neither untried moves nor children, as it is; a node with untried
   moves is expanded and the new child returned.
   */
  method Select(play: (State, Dir, int) -> State, tree: seq<Node>, start: nat, rootPlayer: int)
    returns (r: seq<Node>, leaf: nat, ghost path: seq<nat>)
    requires ValidTree(play, tree) && start < |tree|
    ensures ValidTree(play, r) && leaf < |r|
    ensures |tree| <= |r|
    ensures forall k :: 0 <= k < |tree| ==>
              r[k].state == tree[k].state && r[k].player == tree[k].player && |tree[k].children| <= |r[k].children|
    ensures Descent(tree, rootPlayer, path) && path[0] == start
    ensures IsTerminal(tree[Last(path)].state, rootPlayer).None? && IsFullyExpanded(tree[Last(path)]) ==>
              |tree[Last(path)].children| == 0
    ensures IsTerminal(tree[Last(path)].state, rootPlayer).Some? ||
            (IsFullyExpanded(tree[Last(path)]) && |tree[Last(path)].children| == 0) ==>
              r == tree && leaf == Last(path)
    ensures IsTerminal(tree[Last(path)].state, rootPlayer).None? && !IsFullyExpanded(tree[Last(path)]) ==>
              r == Expand(play, tree, Last(path)).0 && leaf == Expand(play, tree, Last(path)).1
    ensures IsTerminal(tree[start].state, rootPlayer).None? && !IsFullyExpanded(tree[start]) ==>
              r == Expand(play, tree, start).0 && leaf == Expand(play, tree, start).1
  {
    var node := start;
    path := [start];
    while true
      invariant node < |tree|
      invariant Descent(tree, rootPlayer, path) && path[0] == start && Last(path) == node
      invariant node == start || IsFullyExpanded(tree[start])
      decreases |tree| - node
    {
      if IsTerminal(tree[node].state, rootPlayer).Some? {
        return tree, node, path;
      }
      if !IsFullyExpanded(tree[node]) {
        ExpandValid(play, tree, node);
        var e := Expand(play, tree, node);
        return e.0, e.1, path;
      }
      if |tree[node].children| == 0 {
        return tree, node, path;
      }
      assert tree[node].children[0] in tree[node].children;
      var next :| next in tree[node].children;
      var j :| 0 <= j < |tree[node].children| && tree[node].children[j] == next;
      assert NodeOk(play, tree, node) && ChildOk(play, tree, node, j);
      DescentStep(tree, rootPlayer, path, next);
      path := path + [next];
      node := next;
    }
  }

  /** A descent extends by a child of its last node when that node is non-terminal and fully expanded. */
  lemma DescentStep(tree: seq<Node>, rootPlayer: int, path: seq<nat>, next: nat)
    requires Descent(tree, rootPlayer, path)
    requires IsTerminal(tree[Last(path)].state, rootPlayer).None? && IsFullyExpanded(tree[Last(path)])
    requires next in tree[Last(path)].children && next < |tree|
    ensures Descent(tree, rootPlayer, path + [next]) && Last(path + [next]) == next
    ensures (path + [next])[0] == path[0]
  {
    var p := path + [next];
    forall i | 0 <= i < |p| - 1
      ensures IsTerminal(tree[p[i]].state, rootPlayer).None? && IsFullyExpanded(tree[p[i]]) && p[i + 1] in tree[p[i]].children
    {
      if i < |path| - 1 {
        assert p[i] == path[i] && p[i + 1] == path[i + 1];
      } else {
        assert p[i] == Last(path) && p[i + 1] == next;
      }
    }
  }

  // ---------------------------------------------------------------------
  // Rollout
  // ---------------------------------------------------------------------

  /** The player who moves after `p`: 2 after 1 and 1 after 2. */
  function Other(p: int): int
  {
    3 - p
  }

  /**
   `final`, with `finalPlayer` to move, is reached from `s`, with `player` to
   move, by `n` moves of a playout: each one made with `play` from a state
   nobody has lost yet, using a move from the mover's list, after which the
   other player moves.
   */
  ghost predicate Playout(play: (State, Dir, int) -> State, s: State, player: int, final: State, finalPlayer: int, n: nat)
    decreases n
  {
    if n == 0 then final == s && finalPlayer == player
    else exists prev: State, m: Dir ::
      && Playout(play, s, player, prev, Other(finalPlayer), n - 1)
      && prev.loser.None?
      && m in MovesOf(prev, Other(finalPlayer))
      && final == play(prev, m, Other(finalPlayer))
  }

  /** One move made with `play` keeps every taken cell of the board as it was. */
  ghost predicate KeepsTrails(play: (State, Dir, int) -> State)
  {
    forall s: State, m: Dir, p: int, q: Pos ::
      InBounds(s.board, q) && Cell(s.board, q) != 0 ==>
        InBounds(play(s, m, p).board, q) && Cell(play(s, m, p).board, q) == Cell(s.board, q)
  }

  /** The game's move rules keep trails: a losing move leaves the board alone, a legal one takes an empty cell. */
  lemma ApplyMoveKeepsTrails()
    ensures KeepsTrails(ApplyMove)
  {
    forall s: State, m: Dir, p: int, q: Pos | InBounds(s.board, q) && Cell(s.board, q) != 0
      ensures InBounds(ApplyMove(s, m, p).board, q) && Cell(ApplyMove(s, m, p).board, q) == Cell(s.board, q)
    {
      if IsFree(s.board, Step(PosOf(s, p), m)) {
        LegalMoveKeepsTrails(s, m, p, q);
      }
    }
  }

  /**
   A playout never erases a trail when its single moves do not: every cell
   taken at the start holds the same id at the end, however the moves were
   chosen.
   */
  lemma {:induction false} PlayoutKeepsTrails(play: (State, Dir, int) -> State, s: State, player: int,
                                               final: State, finalPlayer: int, n: nat, q: Pos)
    requires KeepsTrails(play)
    requires Playout(play, s, player, final, finalPlayer, n)
    requires InBounds(s.board, q) && Cell(s.board, q) != 0
    ensures InBounds(final.board, q) && Cell(final.board, q) == Cell(s.board, q)
    decreases n
  {
    if n > 0 {
      var mover := Other(finalPlayer);
      var prev: State, m: Dir :| && Playout(play, s, player, prev, mover, n - 1)
                                 && prev.loser.None?
                                 && m in MovesOf(prev, mover)
                                 && final == play(prev, m, mover);
      PlayoutKeepsTrails(play, s, player, prev, mover, n - 1, q);
      var after := play(prev, m, mover);
      assert InBounds(after.board, q) && Cell(after.board, q) == Cell(prev.board, q);
    }
  }

  /**
   A random playout of at most `maxDepth` moves from `s` with `player` to
   move, each move made with `play` (the agent plays `ApplyMove`). `final`
   is the state where it stops, `finalPlayer` the player to move there and
   `played` the number of moves made. The score is the terminal value of
   `final` when somebody has lost; -1 or +1 when the player to move has no
   move (-1 when that is the root player); and 0 exactly when the depth
   limit is reached.
   */
  method Simulate(play: (State, Dir, int) -> State, s: State, player: int, rootPlayer: int, maxDepth: int)
    returns (r: int, final: State, finalPlayer: int, played: nat)
    ensures Playout(play, s, player, final, finalPlayer, played)
    ensures r == -1 || r == 0 || r == 1
    ensures played <= maxDepth || played == 0
    ensures r == 0 <==> played >= maxDepth
    ensures r != 0 ==>
              || IsTerminal(final, rootPlayer) == Some(r)
              || (final.loser.None? && |MovesOf(final, finalPlayer)| == 0 &&
                  r == if finalPlayer == rootPlayer then -1 else 1)
  {
    final := s;
    finalPlayer := player;
    played := 0;
    while played < maxDepth
      invariant Playout(play, s, player, final, finalPlayer, played)
      invariant played <= maxDepth || played == 0
      decreases maxDepth - played
    {
      var terminal := IsTerminal(final, rootPlayer);
      if terminal.Some? {
        return terminal.value, final, finalPlayer, played;
      }
      var moves := MovesOf(final, finalPlayer);
      if |moves| == 0 {
        r := if finalPlayer == rootPlayer then -1 else 1;
        return r, final, finalPlayer, played;
      }
      assert moves[0] in moves;
      var move :| move in moves;
      ghost var prev := final;
      final := play(final, move, finalPlayer);
      finalPlayer := Other(finalPlayer);
      played := played + 1;
      assert Playout(play, s, player, prev, Other(finalPlayer), played - 1) && move in MovesOf(prev, Other(finalPlayer));
    }
    return 0, final, finalPlayer, played;
  }

  // ---------------------------------------------------------------------
  // Backpropagation
  // ---------------------------------------------------------------------

  /** Node `i` and its ancestors. */
  ghost function Chain(tree: seq<Node>, i: nat): (r: set<nat>)
    requires ParentsEarlier(tree) && i < |tree|
    ensures i in r
    ensures forall k :: k in r ==> k <= i
    decreases i
  {
    match tree[i].parent
    case None => {i}
    case Some(p) => {i} + Chain(tree, p)
  }

  /** Node `k` after the walk from `node` to the root: one more visit and `result` added if `k` is on it. */
  ghost function Backed(tree: seq<Node>, node: nat, result: int, k: nat): Node
    requires ParentsEarlier(tree) && node < |tree| && k < |tree|
  {
    if k in Chain(tree, node) then tree[k].(visits := tree[k].visits + 1, value := tree[k].value + result)
    else tree[k]
  }

  /**
   Adds one visit and `result` to `node` and each of its ancestors up to
   the root; nothing else changes.
   */
  method Backpropagate(play: (State, Dir, int) -> State, tree: seq<Node>, node: nat, result: int) returns (r: seq<Node>)
    requires ValidTree(play, tree) && node < |tree|
    ensures |r| == |tree|
    ensures forall k :: 0 <= k < |tree| ==> r[k] == Backed(tree, node, result, k)
    ensures forall k :: 0 <= k < |tree| ==>
              r[k].state == tree[k].state && r[k].player == tree[k].player && r[k].children == tree[k].children
    ensures ValidTree(play, r)
  {
    r := tree;
    var current: Option<nat> := Some(node);
    ghost var done: set<nat> := {};
    while current.Some?
      invariant |r| == |tree|
      invariant current.Some? ==> current.value < |tree| && Chain(tree, current.value) <= Chain(tree, node)
      invariant done == Chain(tree, node) - (if current.Some? then Chain(tree, current.value) else {})
      invariant forall k :: 0 <= k < |tree| ==>
                  r[k] == if k in done then tree[k].(visits := tree[k].visits + 1, value := tree[k].value + result)
                          else tree[k]
      decreases if current.Some? then current.value + 1 else 0
    {
      var k := current.value;
      r := r[k := r[k].(visits := r[k].visits + 1, value := r[k].value + result)];
      done := done + {k};
      current := tree[k].parent;
    }
    assert SameShape(tree, r);
    SameShapeValid(play, tree, r);
  }

  // ---------------------------------------------------------------------
  // Decision
  // ---------------------------------------------------------------------

  /** Position `k` of `children` has the most visits, and every earlier child strictly fewer. */
  ghost predicate FirstMostVisited(tree: seq<Node>, children: seq<nat>, k: int)
  {
    && (forall j :: 0 <= j < |children| ==> children[j] < |tree|)
    && 0 <= k < |children|
    && (forall j :: 0 <= j < |children| ==> tree[children[j]].visits <= tree[children[k]].visits)
    && (forall j :: 0 <= j < k ==> tree[children[j]].visits < tree[children[k]].visits)
  }

  /** The position of the first most-visited child, as the built-in maximum picks it. */
  method MostVisited(tree: seq<Node>, children: seq<nat>) returns (k: nat)
    requires |children| > 0
    requires forall j :: 0 <= j < |children| ==> children[j] < |tree|
    ensures FirstMostVisited(tree, children, k)
  {
    k := 0;
    var i := 1;
    while i < |children|
      invariant 1 <= i <= |children| && k < i
      invariant forall j :: 0 <= j < i ==> tree[children[j]].visits <= tree[children[k]].visits
      invariant forall j :: 0 <= j < k ==> tree[children[j]].visits < tree[children[k]].visits
    {
      if tree[children[i]].visits > tree[children[k]].visits {
        k := i;
      }
      i := i + 1;
    }
  }

  /**
   The agent's move: none when the root state has a loser; otherwise
   `simulations` rounds of select, rollout and backpropagation, then the move
   of the first most-visited root child, or some move of the player's list
   when the root was never expanded. `tree` is the final arena.
   */
  method Search(rootState: State, player: int, simulations: int, maxDepth: int) returns (r: Option<Dir>, ghost tree: seq<Node>)
    ensures rootState.loser.Some? ==> r.None?
    ensures r.None? <==> rootState.loser.Some? || |MovesOf(rootState, player)| == 0
    ensures r.Some? ==> r.value in MovesOf(rootState, player)
    ensures ValidTree(ApplyMove, tree) && tree[0].state == rootState && tree[0].player == player
    ensures rootState.loser.None? && |tree[0].children| > 0 ==>
              exists k :: FirstMostVisited(tree, tree[0].children, k) && r == tree[tree[0].children[k]].move
    ensures rootState.loser.None? && simulations >= 1 && |MovesOf(rootState, player)| > 0 ==> |tree[0].children| > 0
  {
    var arena := [NewNode(rootState, player, None, None)];
    RootTreeValid(ApplyMove, rootState, player);
    tree := arena;
    if IsTerminal(rootState, player).Some? {
      return None, tree;
    }
    var round := 0;
    while round < simulations
      invariant ValidTree(ApplyMove, arena) && arena[0].state == rootState && arena[0].player == player
      invariant round == 0 ==> arena == [NewNode(rootState, player, None, None)]
      invariant round > 0 && |MovesOf(rootState, player)| > 0 ==> |arena[0].children| > 0
      decreases simulations - round
    {
      var leaf;
      ghost var path;
      arena, leaf, path := Select(ApplyMove, arena, 0, player);
      var result, _, _, _ := Simulate(ApplyMove, arena[leaf].state, arena[leaf].player, player, maxDepth);
      arena := Backpropagate(ApplyMove, arena, leaf, result);
      round := round + 1;
    }
    tree := arena;
    assert NodeOk(ApplyMove, arena, 0);
    var root := arena[0];
    if |root.children| == 0 {
      var moves := MovesOf(rootState, player);
      if |moves| == 0 {
        return None, tree;
      }
      assert moves[0] in moves;
      var m :| m in moves;
      return Some(m), tree;
    }
    forall j | 0 <= j < |root.children|
      ensures root.children[j] < |arena|
    {
      assert ChildOk(ApplyMove, arena, 0, j);
    }
    var k := MostVisited(arena, root.children);
    assert ChildOk(ApplyMove, arena, 0, k);
    r := arena[root.children[k]].move;
  }
}

=== FILE: search.dfy ===
/**
 The depth-limited minimax search with alpha-beta pruning that both minimax
 agents run. The agents differ only in their leaf evaluation, so the search
 takes the evaluation as a parameter; the two evaluations are defined at the
 end of the module.
 */
module Search {
  import opened Grid
  import Territory

  // ---------------------------------------------------------------------
  // Scores with the two infinities
  // ---------------------------------------------------------------------

  /** A score, or one of the infinities used as the initial window and initial best. */
  datatype Ext = NegInf | Fin(v: real) | PosInf

  predicate Le(a: Ext, b: Ext)
  {
    a.NegInf? || b.PosInf? || (a.Fin? && b.Fin? && a.v <= b.v)
  }

  predicate Lt(a: Ext, b: Ext)
  {
    !Le(b, a)
  }

  /** The larger score; the first one on a tie. */
  function Max(a: Ext, b: Ext): (r: Ext)
    ensures Le(a, r) && Le(b, r)
    ensures r == a || r == b
  {
    if Lt(a, b) then b else a
  }

  /** The smaller score; the first one on a tie. */
  function Min(a: Ext, b: Ext): (r: Ext)
    ensures Le(r, a) && Le(r, b)
    ensures r == a || r == b
  {
    if Lt(b, a) then b else a
  }

  // ---------------------------------------------------------------------
  // Hypothetical moves
  // ---------------------------------------------------------------------

  /**
   The state after a hypothetical move: the moving player's target cell takes
   its id, its position moves there and its move list is recomputed. The
   other player's move list is left as it was.
   */
  function SimulateMove(s: State, p1Action: Option<Dir>, p2Action: Option<Dir>, player: int): (r: State)
    requires player == 1 && p1Action.Some? ==> InBounds(s.board, Step(s.p1, p1Action.value))
    requires player == 2 && p2Action.Some? ==> InBounds(s.board, Step(s.p2, p2Action.value))
    ensures player == 1 && p1Action.Some? ==>
              && r.p1 == Step(s.p1, p1Action.value)
              && OnlyCellChanged(s.board, r.board, Step(s.p1, p1Action.value), 1)
              && r.p1Moves == ValidMoves(r.board, r.p1)
              && r.p2 == s.p2 && r.p2Moves == s.p2Moves && r.loser == s.loser
    ensures player == 2 && p2Action.Some? ==>
              && r.p2 == Step(s.p2, p2Action.value)
              && OnlyCellChanged(s.board, r.board, Step(s.p2, p2Action.value), 2)
              && r.p2Moves == ValidMoves(r.board, r.p2)
              && r.p1 == s.p1 && r.p1Moves == s.p1Moves && r.loser == s.loser
    ensures !(player == 1 && p1Action.Some?) && !(player == 2 && p2Action.Some?) ==> r == s
    ensures MovesInBounds(s) ==> MovesInBounds(r)
  {
    if player == 1 && p1Action.Some? then
      var target := Step(s.p1, p1Action.value);
      var board := SetCell(s.board, target, 1);
      var r := s.(board := board, p1 := target, p1Moves := ValidMoves(board, target));
      assert MovesCurrent(r.(p2Moves := ValidMoves(board, r.p2)));
      CurrentMovesInBounds(r.(p2Moves := ValidMoves(board, r.p2)));
      r
    else if player == 2 && p2Action.Some? then
      var target := Step(s.p2, p2Action.value);
      var board := SetCell(s.board, target, 2);
      var r := s.(board := board, p2 := target, p2Moves := ValidMoves(board, target));
      CurrentMovesInBounds(r.(p1Moves := ValidMoves(board, r.p1)));
      r
    else
      s
  }

  /**
   The successor the agents search with: `player` moving `m` is
   `SimulateMove` with the move in that player's action slot whenever the
   target is on the board. A target off the board, which in-bounds move
   lists never produce, leaves the state as it is.
   */
  function Successor(s: State, player: int, m: Dir): (r: State)
    ensures InBounds(s.board, Step(PosOf(s, player), m)) ==>
              r == SimulateMove(s, if player == 1 then Some(m) else None, if player == 2 then Some(m) else None, player)
    ensures !InBounds(s.board, Step(PosOf(s, player), m)) ==> r == s
    ensures MovesInBounds(s) ==> MovesInBounds(r)
  {
    if InBounds(s.board, Step(PosOf(s, player), m)) then
      SimulateMove(s, if player == 1 then Some(m) else None, if player == 2 then Some(m) else None, player)
    else s
  }

  /**
   The opponent's move list is not refreshed after a move, so the search can
   let the opponent step into the cell the player has just taken. On this
   3x3 board (a state whose move lists are current) player 1 moves
   right into the centre; the state is no search leaf, since player 1 now
   has UP and DOWN and player 2's stale list still offers LEFT. The reply
   writes 2 over player 1's head, and both positions end on the centre.
   */
  lemma StaleOpponentMoves()
    ensures var s := State([[1, 0, 1], [1, 0, 2], [1, 0, 1]], Pos(1, 0), Pos(1, 2), [Right], [Left], None);
            var afterP1 := Successor(s, 1, Right);
            var afterP2 := Successor(afterP1, 2, Left);
            && MovesCurrent(s)
            && afterP1.p1Moves == [Up, Down]
            && afterP1.p2Moves == [Left]
            && !IsLeaf(afterP1, 1)
            && afterP2.board == [[1, 0, 1], [1, 2, 2], [1, 0, 1]]
            && afterP2.p1 == Pos(1, 1) && afterP2.p2 == Pos(1, 1)
  {
    var s := State([[1, 0, 1], [1, 0, 2], [1, 0, 1]], Pos(1, 0), Pos(1, 2), [Right], [Left], None);
    StaleRootMoves();
    var b1 := [[1, 0, 1], [1, 1, 2], [1, 0, 1]];
    var mid := State(b1, Pos(1, 1), Pos(1, 2), [Up, Down], [Left], None);
    StaleFirstMove();
    assert Successor(s, 1, Right) == mid;
    StaleReply();
  }

  /**
   The leaf that `StaleOpponentMoves` reaches is scored by the advanced
   evaluation with an articulation bonus of 20 for player 1: both heads sit
   on a cell holding 2, so the own-cell argument for a zero bonus does not
   apply there (`Territory.SharedHeadSplits`).
   */
  lemma StaleLeafBonus(fill: (Board, Pos, int) -> int)
    ensures var leaf := Successor(Successor(State([[1, 0, 1], [1, 0, 2], [1, 0, 1]], Pos(1, 0), Pos(1, 2), [Right], [Left], None), 1, Right), 2, Left);
            AdvancedEvaluate(fill, leaf)
              == (fill(leaf.board, leaf.p1, 1) - fill(leaf.board, leaf.p2, 2) + 20) as real
                 + Territory.Voronoi(leaf.board, leaf.p1, leaf.p2) as real * 0.5
  {
    StaleOpponentMoves();
    Territory.SharedHeadSplits();
  }

  /** The move lists of the root state of `StaleOpponentMoves` are current. */
  lemma StaleRootMoves()
    ensures ValidMoves([[1, 0, 1], [1, 0, 2], [1, 0, 1]], Pos(1, 0)) == [Right]
    ensures ValidMoves([[1, 0, 1], [1, 0, 2], [1, 0, 1]], Pos(1, 2)) == [Left]
  {
  }

  /** Player 1 takes the centre and may then go UP or DOWN. */
  lemma StaleFirstMove()
    ensures SetCell([[1, 0, 1], [1, 0, 2], [1, 0, 1]], Pos(1, 1), 1) == [[1, 0, 1], [1, 1, 2], [1, 0, 1]]
    ensures ValidMoves([[1, 0, 1], [1, 1, 2], [1, 0, 1]], Pos(1, 1)) == [Up, Down]
  {
    assert SetCell([[1, 0, 1], [1, 0, 2], [1, 0, 1]], Pos(1, 1), 1)[1] == [1, 1, 2];
  }

  /** Player 2's stale LEFT writes 2 over the centre. */
  lemma StaleReply()
    ensures SetCell([[1, 0, 1], [1, 1, 2], [1, 0, 1]], Pos(1, 1), 2) == [[1, 0, 1], [1, 2, 2], [1, 0, 1]]
  {
    assert SetCell([[1, 0, 1], [1, 1, 2], [1, 0, 1]], Pos(1, 1), 2)[1] == [1, 2, 2];
  }

  // ---------------------------------------------------------------------
  // The search as written: fail-soft alpha-beta
  // ---------------------------------------------------------------------

  /** A search leaf: no depth left, or one of the players has no move. */
  predicate IsLeaf(s: State, depth: nat)
  {
    depth == 0 || |s.p1Moves| == 0 || |s.p2Moves| == 0
  }

  /**
   The score of `s` searched `depth` plies deep with window (`alpha`,
   `beta`); the maximizing side moves player 1, the other side player 2.
   */
  function AlphaBeta(eval: State -> real, next: (State, int, Dir) -> State, s: State, depth: nat, alpha: Ext, beta: Ext, maximizing: bool): real
    decreases depth, 1
  {
    if IsLeaf(s, depth) then eval(s)
    else if maximizing then MaxLoop(eval, next, s, depth, 0, alpha, beta, NegInf).v
    else MinLoop(eval, next, s, depth, 0, alpha, beta, PosInf).v
  }

  /**
   The maximizing loop over player 1's moves from the `i`-th on: `best` is
   the best score so far and `alpha` the raised lower bound; the loop stops
   once `beta <= alpha`.
   */
  function MaxLoop(eval: State -> real, next: (State, int, Dir) -> State, s: State, depth: nat, i: nat, alpha: Ext, beta: Ext, best: Ext): (r: Ext)
    requires depth >= 1 && i <= |s.p1Moves|
    requires !best.PosInf?
    ensures Le(best, r) && !r.PosInf?
    ensures i < |s.p1Moves| ==> r.Fin?
    decreases depth, 0, |s.p1Moves| - i
  {
    if i == |s.p1Moves| then best
    else
      var v := Fin(AlphaBeta(eval, next, next(s, 1, s.p1Moves[i]), depth - 1, alpha, beta, false));
      var best' := Max(best, v);
      var alpha' := Max(alpha, v);
      if Le(beta, alpha') then best'
      else MaxLoop(eval, next, s, depth, i + 1, alpha', beta, best')
  }

  /** The minimizing loop over player 2's moves from the `i`-th on, lowering `beta`. */
  function MinLoop(eval: State -> real, next: (State, int, Dir) -> State, s: State, depth: nat, i: nat, alpha: Ext, beta: Ext, best: Ext): (r: Ext)
    requires depth >= 1 && i <= |s.p2Moves|
    requires !best.NegInf?
    ensures Le(r, best) && !r.NegInf?
    ensures i < |s.p2Moves| ==> r.Fin?
    decreases depth, 0, |s.p2Moves| - i
  {
    if i == |s.p2Moves| then best
    else
      var v := Fin(AlphaBeta(eval, next, next(s, 2, s.p2Moves[i]), depth - 1, alpha, beta, true));
      var best' := Min(best, v);
      var beta' := Min(beta, v);
      if Le(beta', alpha) then best'
      else MinLoop(eval, next, s, depth, i + 1, alpha, beta', best')
  }

  // ---------------------------------------------------------------------
  // Reference: plain minimax
  // ---------------------------------------------------------------------

  /** The minimax value of `s` at `depth`, every move explored. */
  function MinimaxValue(eval: State -> real, next: (State, int, Dir) -> State, s: State, depth: nat, maximizing: bool): real
    decreases depth, 1
  {
    if IsLeaf(s, depth) then eval(s)
    else if maximizing then MaxChildren(eval, next, s, depth, 0).v
    else MinChildren(eval, next, s, depth, 0).v
  }

  /** The largest minimax value among player 1's moves from the `i`-th on; `NegInf` for none. */
  function MaxChildren(eval: State -> real, next: (State, int, Dir) -> State, s: State, depth: nat, i: nat): (r: Ext)
    requires depth >= 1 && i <= |s.p1Moves|
    ensures r.Fin? <==> i < |s.p1Moves|
    ensures i == |s.p1Moves| ==> r == NegInf
    decreases depth, 0, |s.p1Moves| - i
  {
    if i == |s.p1Moves| then NegInf
    else Max(Fin(MinimaxValue(eval, next, next(s, 1, s.p1Moves[i]), depth - 1, false)),
             MaxChildren(eval, next, s, depth, i + 1))
  }

  /** The smallest minimax value among player 2's moves from the `i`-th on; `PosInf` for none. */
  function MinChildren(eval: State -> real, next: (State, int, Dir) -> State, s: State, depth: nat, i: nat): (r: Ext)
    requires depth >= 1 && i <= |s.p2Moves|
    ensures r.Fin? <==> i < |s.p2Moves|
    ensures i == |s.p2Moves| ==> r == PosInf
    decreases depth, 0, |s.p2Moves| - i
  {
    if i == |s.p2Moves| then PosInf
    else Min(Fin(MinimaxValue(eval, next, next(s, 2, s.p2Moves[i]), depth - 1, true)),
             MinChildren(eval, next, s, depth, i + 1))
  }

  /** The value player 1 gets by moving `m` from `s`, under plain minimax. */
  function MaxChild(eval: State -> real, next: (State, int, Dir) -> State, s: State, depth: nat, m: Dir): real
    requires depth >= 1
  {
    MinimaxValue(eval, next, next(s, 1, m), depth - 1, false)
  }

  /** The value player 2 gets by moving `m` from `s`, under plain minimax. */
  function MinChild(eval: State -> real, next: (State, int, Dir) -> State, s: State, depth: nat, m: Dir): real
    requires depth >= 1
  {
    MinimaxValue(eval, next, next(s, 2, m), depth - 1, true)
  }

  /**
   `MaxChildren` is the maximum over player 1's moves from the `i`-th on: no
   child exceeds it and some child attains it.
   */
  lemma {:induction false} MaxChildrenIsMax(eval: State -> real, next: (State, int, Dir) -> State, s: State, depth: nat, i: nat)
    requires depth >= 1 && i <= |s.p1Moves|
    ensures forall j :: i <= j < |s.p1Moves| ==> Le(Fin(MaxChild(eval, next, s, depth, s.p1Moves[j])), MaxChildren(eval, next, s, depth, i))
    ensures i < |s.p1Moves| ==> exists j :: i <= j < |s.p1Moves| && MaxChildren(eval, next, s, depth, i) == Fin(MaxChild(eval, next, s, depth, s.p1Moves[j]))
    decreases |s.p1Moves| - i
  {
    if i < |s.p1Moves| {
      MaxChildrenIsMax(eval, next, s, depth, i + 1);
      if MaxChildren(eval, next, s, depth, i) != Fin(MaxChild(eval, next, s, depth, s.p1Moves[i])) {
        var k :| i + 1 <= k < |s.p1Moves| && MaxChildren(eval, next, s, depth, i + 1) == Fin(MaxChild(eval, next, s, depth, s.p1Moves[k]));
        assert MaxChildren(eval, next, s, depth, i) == Fin(MaxChild(eval, next, s, depth, s.p1Moves[k]));
      }
    }
  }

  /**
   `MinChildren` is the minimum over player 2's moves from the `i`-th on: no
   child is below it and some child attains it.
   */
  lemma {:induction false} MinChildrenIsMin(eval: State -> real, next: (State, int, Dir) -> State, s: State, depth: nat, i: nat)
    requires depth >= 1 && i <= |s.p2Moves|
    ensures forall j :: i <= j < |s.p2Moves| ==> Le(MinChildren(eval, next, s, depth, i), Fin(MinChild(eval, next, s, depth, s.p2Moves[j])))
    ensures i < |s.p2Moves| ==> exists j :: i <= j < |s.p2Moves| && MinChildren(eval, next, s, depth, i) == Fin(MinChild(eval, next, s, depth, s.p2Moves[j]))
    decreases |s.p2Moves| - i
  {
    if i < |s.p2Moves| {
      MinChildrenIsMin(eval, next, s, depth, i + 1);
      if MinChildren(eval, next, s, depth, i) != Fin(MinChild(eval, next, s, depth, s.p2Moves[i])) {
        var k :| i + 1 <= k < |s.p2Moves| && MinChildren(eval, next, s, depth, i + 1) == Fin(MinChild(eval, next, s, depth, s.p2Moves[k]));
        assert MinChildren(eval, next, s, depth, i) == Fin(MinChild(eval, next, s, depth, s.p2Moves[k]));
      }
    }
  }

  // ---------------------------------------------------------------------
  // Alpha-beta is sound
  // ---------------------------------------------------------------------

  /**
   The fail-soft guarantee of a search result `r` for true value `t` under
   window (`alpha`, `beta`): exact inside the window, an upper bound of `t`
   at or below `alpha`, a lower bound of `t` at or above `beta`.
   */
  predicate FailSoft(alpha: Ext, beta: Ext, r: Ext, t: Ext)
  {
    && (Lt(alpha, r) && Lt(r, beta) ==> r == t)
    && (Le(r, alpha) ==> Le(t, r))
    && (Le(beta, r) ==> Le(r, t))
  }

  /**
   A maximizing step that cuts off keeps the guarantee: the loop returns
   `Max(best, v)` and the true value is `Max(best, whole)`.
   */
  lemma MaxCutoffStep(alpha: Ext, beta: Ext, best: Ext, v: Ext, t: Ext, rest: Ext, loop: Ext, whole: Ext)
    requires Lt(alpha, beta) && Le(best, alpha) && v.Fin?
    requires FailSoft(alpha, beta, v, t)
    requires Le(beta, Max(alpha, v))
    requires loop == Max(best, v) && whole == Max(t, rest)
    ensures FailSoft(alpha, beta, loop, Max(best, whole))
  {
    assert Le(beta, v);
  }

  /** A maximizing step that carries on keeps the guarantee, given the guarantee of the rest of the loop. */
  lemma MaxContinueStep(alpha: Ext, beta: Ext, best: Ext, v: Ext, t: Ext, rest: Ext, loop: Ext, whole: Ext)
    requires Lt(alpha, beta) && Le(best, alpha) && v.Fin?
    requires FailSoft(alpha, beta, v, t)
    requires !Le(beta, Max(alpha, v))
    requires Le(Max(best, v), loop)
    requires FailSoft(Max(alpha, v), beta, loop, Max(Max(best, v), rest))
    requires whole == Max(t, rest)
    ensures FailSoft(alpha, beta, loop, Max(best, whole))
  {
    if Le(v, alpha) {
      assert Max(alpha, v) == alpha;
    } else {
      assert v == t;
    }
  }

  /** A minimizing step that cuts off keeps the guarantee. */
  lemma MinCutoffStep(alpha: Ext, beta: Ext, best: Ext, v: Ext, t: Ext, rest: Ext, loop: Ext, whole: Ext)
    requires Lt(alpha, beta) && Le(beta, best) && v.Fin?
    requires FailSoft(alpha, beta, v, t)
    requires Le(Min(beta, v), alpha)
    requires loop == Min(best, v) && whole == Min(t, rest)
    ensures FailSoft(alpha, beta, loop, Min(best, whole))
  {
    assert Le(v, alpha);
  }

  /** A minimizing step that carries on keeps the guarantee. */
  lemma MinContinueStep(alpha: Ext, beta: Ext, best: Ext, v: Ext, t: Ext, rest: Ext, loop: Ext, whole: Ext)
    requires Lt(alpha, beta) && Le(beta, best) && v.Fin?
    requires FailSoft(alpha, beta, v, t)
    requires !Le(Min(beta, v), alpha)
    requires Le(loop, Min(best, v))
    requires FailSoft(alpha, Min(beta, v), loop, Min(Min(best, v), rest))
    requires whole == Min(t, rest)
    ensures FailSoft(alpha, beta, loop, Min(best, whole))
  {
    if Le(beta, v) {
      assert Min(beta, v) == beta;
    } else {
      assert v == t;
    }
  }

  /** Alpha-beta's result obeys the fail-soft guarantee against plain minimax. */
  lemma {:induction false} AlphaBetaBounds(eval: State -> real, next: (State, int, Dir) -> State, s: State, depth: nat, alpha: Ext, beta: Ext, maximizing: bool)
    requires Lt(alpha, beta)
    ensures FailSoft(alpha, beta, Fin(AlphaBeta(eval, next, s, depth, alpha, beta, maximizing)), Fin(MinimaxValue(eval, next, s, depth, maximizing)))
    decreases depth, 1
  {
    if !IsLeaf(s, depth) {
      if maximizing {
        MaxLoopBounds(eval, next, s, depth, 0, alpha, beta, NegInf);
        assert Max(NegInf, MaxChildren(eval, next, s, depth, 0)) == MaxChildren(eval, next, s, depth, 0);
      } else {
        MinLoopBounds(eval, next, s, depth, 0, alpha, beta, PosInf);
        assert Min(PosInf, MinChildren(eval, next, s, depth, 0)) == MinChildren(eval, next, s, depth, 0);
      }
    }
  }

  lemma {:induction false} MaxLoopBounds(eval: State -> real, next: (State, int, Dir) -> State, s: State, depth: nat, i: nat, alpha: Ext, beta: Ext, best: Ext)
    requires depth >= 1 && i <= |s.p1Moves|
    requires !best.PosInf? && Lt(alpha, beta) && Le(best, alpha)
    ensures FailSoft(alpha, beta, MaxLoop(eval, next, s, depth, i, alpha, beta, best), Max(best, MaxChildren(eval, next, s, depth, i)))
    decreases depth, 0, |s.p1Moves| - i
  {
    if i < |s.p1Moves| {
      var child := next(s, 1, s.p1Moves[i]);
      var v := Fin(AlphaBeta(eval, next, child, depth - 1, alpha, beta, false));
      var t := Fin(MinimaxValue(eval, next, child, depth - 1, false));
      var rest := MaxChildren(eval, next, s, depth, i + 1);
      var loop := MaxLoop(eval, next, s, depth, i, alpha, beta, best);
      var whole := MaxChildren(eval, next, s, depth, i);
      assert FailSoft(alpha, beta, v, t) by {
        AlphaBetaBounds(eval, next, child, depth - 1, alpha, beta, false);
      }
      if Le(beta, Max(alpha, v)) {
        MaxCutoffStep(alpha, beta, best, v, t, rest, loop, whole);
      } else {
        MaxLoopBounds(eval, next, s, depth, i + 1, Max(alpha, v), beta, Max(best, v));
        MaxContinueStep(alpha, beta, best, v, t, rest, loop, whole);
      }
    }
  }

  lemma {:induction false} MinLoopBounds(eval: State -> real, next: (State, int, Dir) -> State, s: State, depth: nat, i: nat, alpha: Ext, beta: Ext, best: Ext)
    requires depth >= 1 && i <= |s.p2Moves|
    requires !best.NegInf? && Lt(alpha, beta) && Le(beta, best)
    ensures FailSoft(alpha, beta, MinLoop(eval, next, s, depth, i, alpha, beta, best), Min(best, MinChildren(eval, next, s, depth, i)))
    decreases depth, 0, |s.p2Moves| - i
  {
    if i < |s.p2Moves| {
      var child := next(s, 2, s.p2Moves[i]);
      var v := Fin(AlphaBeta(eval, next, child, depth - 1, alpha, beta, true));
      var t := Fin(MinimaxValue(eval, next, child, depth - 1, true));
      var rest := MinChildren(eval, next, s, depth, i + 1);
      var loop := MinLoop(eval, next, s, depth, i, alpha, beta, best);
      var whole := MinChildren(eval, next, s, depth, i);
      assert FailSoft(alpha, beta, v, t) by {
        AlphaBetaBounds(eval, next, child, depth - 1, alpha, beta, true);
      }
      if Le(Min(beta, v), alpha) {
        MinCutoffStep(alpha, beta, best, v, t, rest, loop, whole);
      } else {
        MinLoopBounds(eval, next, s, depth, i + 1, alpha, Min(beta, v), Min(best, v));
        MinContinueStep(alpha, beta, best, v, t, rest, loop, whole);
      }
    }
  }

  /** Searched with the full window, alpha-beta returns exactly the minimax value. */
  lemma AlphaBetaExact(eval: State -> real, next: (State, int, Dir) -> State, s: State, depth: nat, maximizing: bool)
    ensures AlphaBeta(eval, next, s, depth, NegInf, PosInf, maximizing) == MinimaxValue(eval, next, s, depth, maximizing)
  {
    AlphaBetaBounds(eval, next, s, depth, NegInf, PosInf, maximizing);
  }

  // ---------------------------------------------------------------------
  // Choosing the move
  // ---------------------------------------------------------------------

  /** The minimax value of `player` moving `m` from `s`, the search then `depth - 1` plies deep. */
  function ChildValue(eval: State -> real, next: (State, int, Dir) -> State, s: State, player: int, depth: nat, m: Dir): real
    requires depth >= 1
  {
    MinimaxValue(eval, next, next(s, player, m), depth - 1, player == 2)
  }

  /**
   One iteration of the agent's loop: `player` moves `m`, then the opponent's
   reply is searched with the full window. The result is the child's minimax
   value.
   */
  function SearchChild(eval: State -> real, next: (State, int, Dir) -> State, s: State, player: int, depth: nat, m: Dir): (r: real)
    requires depth >= 1
    ensures r == ChildValue(eval, next, s, player, depth, m)
  {
    var child := next(s, player, m);
    AlphaBetaExact(eval, next, child, depth - 1, player == 2);
    AlphaBeta(eval, next, child, depth - 1, NegInf, PosInf, player == 2)
  }

  /** The child values of the player's moves, in move-list order. */
  ghost function ChildValues(eval: State -> real, next: (State, int, Dir) -> State, s: State, player: int, depth: nat): (r: seq<real>)
    requires depth >= 1
    ensures |r| == |MovesOf(s, player)|
  {
    var moves := MovesOf(s, player);
    seq(|moves|, j requires 0 <= j < |moves| => ChildValue(eval, next, s, player, depth, moves[j]))
  }

  lemma ChildValuesAt(eval: State -> real, next: (State, int, Dir) -> State, s: State, player: int, depth: nat, j: int)
    requires depth >= 1 && 0 <= j < |MovesOf(s, player)|
    ensures ChildValues(eval, next, s, player, depth)[j] == ChildValue(eval, next, s, player, depth, MovesOf(s, player)[j])
  {
  }

  /** `x` is strictly better than `y` for `player`: higher for player 1, lower for player 2. */
  predicate Better(player: int, x: real, y: real)
  {
    (player == 1 && x > y) || (player == 2 && x < y)
  }

  /**
   Among the first `i` values, index `k` holds the first best one: none of
   them is better and every one before `k` is worse.
   */
  predicate BestSoFar(values: seq<real>, player: int, i: int, k: int)
  {
    && 0 <= k < i <= |values|
    && (forall j :: 0 <= j < i ==> !Better(player, values[j], values[k]))
    && (forall j :: 0 <= j < k ==> Better(player, values[k], values[j]))
  }

  /** Index `k` holds the first best value of the whole list. */
  predicate FirstBest(values: seq<real>, player: int, k: int)
  {
    BestSoFar(values, player, |values|, k)
  }

  /** Looking at one more value keeps the first best, unless the new value is strictly better. */
  lemma BestSoFarStep(values: seq<real>, player: int, i: int, k: int)
    requires BestSoFar(values, player, i, k) && i < |values|
    ensures BestSoFar(values, player, i + 1, if Better(player, values[i], values[k]) then i else k)
  {
  }

  /**
   The move the agent plays: none without legal moves; otherwise the first
   move whose minimax value is best for the player (the first move, for an
   id that is neither 1 nor 2). The agents search with `next := Successor`.
   */
  method GetAction(eval: State -> real, next: (State, int, Dir) -> State, s: State, player: int, depth: nat) returns (r: Option<Dir>)
    requires depth >= 1
    ensures r.None? <==> |MovesOf(s, player)| == 0
    ensures r.Some? && (player == 1 || player == 2) ==>
              exists k :: FirstBest(ChildValues(eval, next, s, player, depth), player, k) && r.value == MovesOf(s, player)[k]
    ensures r.Some? && player != 1 && player != 2 ==> r.value == MovesOf(s, player)[0]
  {
    var moves := MovesOf(s, player);
    if |moves| == 0 {
      return None;
    }
    ghost var values := ChildValues(eval, next, s, player, depth);
    var bestAction := moves[0];
    var bestValue := if player == 1 then NegInf else PosInf;
    ghost var bestIndex := 0;
    var i := 0;
    while i < |moves|
      invariant 0 <= i <= |moves|
      invariant 0 <= bestIndex < |moves| && bestAction == moves[bestIndex]
      invariant i == 0 ==> bestIndex == 0 && bestValue == (if player == 1 then NegInf else PosInf)
      invariant (player == 1 || player == 2) && i > 0 ==>
                  BestSoFar(values, player, i, bestIndex) && bestValue == Fin(values[bestIndex])
      invariant player != 1 && player != 2 ==> bestIndex == 0
    {
      var action := moves[i];
      var value := SearchChild(eval, next, s, player, depth, action);
      ChildValuesAt(eval, next, s, player, depth, i);
      if (player == 1 || player == 2) && i > 0 {
        BestSoFarStep(values, player, i, bestIndex);
      }
      if player == 1 && Lt(bestValue, Fin(value)) {
        bestValue := Fin(value);
        bestAction := action;
        bestIndex := i;
      } else if player == 2 && Lt(Fin(value), bestValue) {
        bestValue := Fin(value);
        bestAction := action;
        bestIndex := i;
      }
      i := i + 1;
    }
    if player == 1 || player == 2 {
      assert FirstBest(values, player, bestIndex);
    }
    return Some(bestAction);
  }

  // ---------------------------------------------------------------------
  // The two leaf evaluations
  // ---------------------------------------------------------------------

  /** The plain agent's leaf score: player 1's reachable area minus player 2's. */
  function SpaceEvaluate(fill: (Board, Pos, int) -> int, s: State): real
  {
    (fill(s.board, s.p1, 1) - fill(s.board, s.p2, 2)) as real
  }

  /** The advanced agent's leaf score. */
  function AdvancedEvaluate(fill: (Board, Pos, int) -> int, s: State): real
  {
    Territory.AdvancedEvaluate(fill, s.board, s.p1, s.p2)
  }

  /**
   On a state whose positions hold the players' ids, the advanced score
   differs from the plain one by half the Voronoi balance, which is at most
   half the number of empty cells.
   */
  lemma AdvancedNearSpace(fill: (Board, Pos, int) -> int, s: State)
    requires InBounds(s.board, s.p1) && Cell(s.board, s.p1) == 1
    requires InBounds(s.board, s.p2) && Cell(s.board, s.p2) == 2
    ensures AdvancedEvaluate(fill, s) == SpaceEvaluate(fill, s) + Territory.Voronoi(s.board, s.p1, s.p2) as real * 0.5
    ensures SpaceEvaluate(fill, s) - Territory.EmptyCount(s.board) as real * 0.5 <= AdvancedEvaluate(fill, s)
    ensures AdvancedEvaluate(fill, s) <= SpaceEvaluate(fill, s) + Territory.EmptyCount(s.board) as real * 0.5
  {
    Territory.AdvancedEvaluateOnPlayerCells(fill, s.board, s.p1, s.p2);
  }
}

=== FILE: territory.dfy ===
/**
 Territory evaluation of a board: the opponent-space split count, the
 Voronoi balance of empty cells and the weighted score that combines them
 with the reachable-space difference.
 */
module Territory {
  import opened Grid
  import opened Connectivity

  /** The cells of `b` that hold `v`. */
  function Holding(b: Board, v: int): (r: set<Pos>)
    ensures forall q :: q in r <==> InBounds(b, q) && Cell(b, q) == v
  {
    set y, x | 0 <= y < Height(b) && 0 <= x < Width(b) && b[y][x] == v :: Pos(y, x)
  }

  /** The cells the player with id `v` may pass through: on the board and holding 0 or `v`. */
  function Open(b: Board, v: int): (r: set<Pos>)
    ensures forall q :: q in r <==> InBounds(b, q) && (Cell(b, q) == 0 || Cell(b, q) == v)
  {
    set y, x | 0 <= y < Height(b) && 0 <= x < Width(b) && (b[y][x] == 0 || b[y][x] == v) :: Pos(y, x)
  }

  /** The id of the other player: 2 for 1 and 1 for 2. */
  function OpponentOf(playerId: int): int
  {
    3 - playerId
  }

  /** The first cell holding `v` in row-major order, if any. */
  function FirstHolding(b: Board, v: int): (r: Option<Pos>)
    ensures r.Some? ==> InBounds(b, r.value) && Cell(b, r.value) == v
    ensures r.Some? ==> forall q :: InBounds(b, q) && Cell(b, q) == v ==> AtOrAfter(q, r.value.row, r.value.col)
    ensures r.None? <==> forall q :: InBounds(b, q) ==> Cell(b, q) != v
  {
    FirstIn(Height(b), Width(b), Holding(b, v))
  }

  /**
   The number of separate regions the opponent's space falls into once the
   cell `start` is taken away. The opponent's space is flooded from the first
   cell, in row-major order, that holds the opponent's id; a board without
   such a cell, or a space that is empty once `start` is removed, counts as 1.
   */
  function FindArticulationPoints(b: Board, start: Pos, playerId: int): (r: nat)
    ensures r >= 1
    ensures FirstHolding(b, OpponentOf(playerId)).None? ==> r == 1
  {
    var opponentId := OpponentOf(playerId);
    if FirstHolding(b, opponentId).None? then 1
    else SplitCount(Height(b), Width(b), OpponentFlood(b, opponentId) - {start})
  }

  /** The cells flooded from the first cell holding `opponentId`, through empty and `opponentId` cells. */
  function OpponentFlood(b: Board, opponentId: int): (r: set<Pos>)
    requires FirstHolding(b, opponentId).Some?
    ensures forall q :: q in r ==> InRect(Height(b), Width(b), q)
  {
    var open := Open(b, opponentId);
    var space := Flood(open, {}, [FirstHolding(b, opponentId).value]);
    assert forall q :: q in space ==> q in open;
    space
  }

  /** The component count of what is left of the space, or 1 when nothing is left. */
  function SplitCount(h: nat, w: nat, remaining: set<Pos>): (r: nat)
    requires forall q :: q in remaining ==> InRect(h, w, q)
    ensures r >= 1
  {
    if |remaining| == 0 then 1 else CountComponents(h, w, remaining, remaining)
  }

  /** The opponent's space in the reference sense: the component of its first cell. */
  ghost function OpponentSpace(b: Board, opponentId: int, first: Pos): set<Pos>
  {
    ComponentOf(Open(b, opponentId), first)
  }

  /**
   The flooded opponent space holds only on-board cells with 0 or the
   opponent's id, is four-connected from the row-major-first opponent cell,
   and is exactly that cell's component.
   */
  lemma OpponentSpaceShape(b: Board, playerId: int)
    requires FirstHolding(b, OpponentOf(playerId)).Some?
    ensures OpponentFlood(b, OpponentOf(playerId)) == OpponentSpace(b, OpponentOf(playerId), FirstHolding(b, OpponentOf(playerId)).value)
    ensures FirstHolding(b, OpponentOf(playerId)).value in OpponentFlood(b, OpponentOf(playerId))
    ensures forall q :: q in OpponentFlood(b, OpponentOf(playerId)) ==>
              InBounds(b, q) && (Cell(b, q) == 0 || Cell(b, q) == OpponentOf(playerId))
    ensures forall q :: q in OpponentFlood(b, OpponentOf(playerId)) ==>
              Connected(OpponentFlood(b, OpponentOf(playerId)), FirstHolding(b, OpponentOf(playerId)).value, q)
  {
    var opponentId := OpponentOf(playerId);
    var first := FirstHolding(b, opponentId).value;
    var open := Open(b, opponentId);
    FloodIsComponent(open, first);
    forall q | q in ComponentOf(open, first)
      ensures Connected(ComponentOf(open, first), first, q)
    {
      ComponentIsConnected(open, first, q);
    }
  }

  /** A path from `a` inside `region` stays inside the component of `a`. */
  lemma ComponentIsConnected(region: set<Pos>, a: Pos, q: Pos)
    requires q in ComponentOf(region, a)
    ensures Connected(ComponentOf(region, a), a, q)
  {
    var c := ComponentOf(region, a);
    var path :| IsPath(path, region) && path[0] == a && path[|path| - 1] == q;
    forall i | 0 <= i < |path|
      ensures path[i] in c
    {
      var prefix := path[..i + 1];
      assert IsPath(prefix, region);
    }
    assert IsPath(path, c);
  }

  /** A set in which every cell is connected to one cell has exactly one component. */
  lemma SingleComponent(region: set<Pos>, a: Pos)
    requires a in region
    requires forall q :: q in region ==> Connected(region, a, q)
    ensures NumComponents(region) == 1
  {
    var c := ComponentOf(region, a);
    forall k | k in Classes(region, region)
      ensures k == c
    {
      var q :| q in region && k == ComponentOf(region, q);
      ComponentOfConnected(region, a, q);
    }
    assert c in Classes(region, region);
    assert Classes(region, region) == {c};
  }

  /**
   Outside the degenerate cases the result is the number of four-connected
   components of the opponent's space with `start` removed.
   */
  lemma ArticulationCountsComponents(b: Board, start: Pos, playerId: int)
    requires FirstHolding(b, OpponentOf(playerId)).Some?
    ensures FindArticulationPoints(b, start, playerId)
              == if |SpaceWithout(b, start, playerId)| == 0 then 1 else NumComponents(SpaceWithout(b, start, playerId))
  {
    var first := FirstHolding(b, OpponentOf(playerId)).value;
    FloodIsComponent(Open(b, OpponentOf(playerId)), first);
    assert OpponentFlood(b, OpponentOf(playerId)) == OpponentSpace(b, OpponentOf(playerId), first);
    SplitCountIsComponents(Height(b), Width(b), OpponentFlood(b, OpponentOf(playerId)) - {start});
  }

  /** The opponent's space, in the reference sense, with the cell `start` taken away. */
  ghost function SpaceWithout(b: Board, start: Pos, playerId: int): set<Pos>
    requires FirstHolding(b, OpponentOf(playerId)).Some?
  {
    OpponentSpace(b, OpponentOf(playerId), FirstHolding(b, OpponentOf(playerId)).value) - {start}
  }

  /** Away from the empty case the split count is the reference number of components. */
  lemma SplitCountIsComponents(h: nat, w: nat, remaining: set<Pos>)
    requires forall q :: q in remaining ==> InRect(h, w, q)
    ensures SplitCount(h, w, remaining) == if |remaining| == 0 then 1 else NumComponents(remaining)
  {
    if |remaining| != 0 {
      CountAll(h, w, remaining);
    }
  }

  /** When `start` is outside the opponent's space nothing is split: the result is 1. */
  lemma StartOutsideSpace(b: Board, start: Pos, playerId: int)
    requires FirstHolding(b, OpponentOf(playerId)).Some?
    requires start !in OpponentSpace(b, OpponentOf(playerId), FirstHolding(b, OpponentOf(playerId)).value)
    ensures FindArticulationPoints(b, start, playerId) == 1
  {
    var first := FirstHolding(b, OpponentOf(playerId)).value;
    var space := OpponentFlood(b, OpponentOf(playerId));
    assert SpaceWithout(b, start, playerId) == space && NumComponents(space) == 1 by {
      OpponentSpaceShape(b, playerId);
      SingleComponent(space, first);
    }
    ArticulationCountsComponents(b, start, playerId);
  }


  /**
   A cell that holds the player's own id is never in the opponent's space, so
   the split count from the player's own position is always 1.
   */
  lemma OwnCellNeverSplits(b: Board, start: Pos, playerId: int)
    requires playerId == 1 || playerId == 2
    requires InBounds(b, start) && Cell(b, start) == playerId
    ensures FindArticulationPoints(b, start, playerId) == 1
  {
    if FirstHolding(b, OpponentOf(playerId)).Some? {
      StartOutsideSpace(b, start, playerId);
    }
  }

  /** No two cells of `region` are four-neighbours. */
  ghost predicate Scattered(region: set<Pos>)
  {
    forall a, q :: a in region && q in region ==> !Adjacent(a, q)
  }

  /** In a region without neighbouring cells every cell is a component of its own. */
  lemma ScatteredComponent(region: set<Pos>, a: Pos)
    requires Scattered(region) && a in region
    ensures ComponentOf(region, a) == {a}
  {
    ConnectedRefl(region, a);
    assert Closed(region, {a});
    forall q | q in ComponentOf(region, a)
      ensures q == a
    {
      var path :| IsPath(path, region) && path[0] == a && path[|path| - 1] == q;
      ClosedHoldsPath(region, {a}, path);
    }
  }

  /**
   The exception to `OwnCellNeverSplits`: a simulated reply along a stale
   move list can leave both heads on one cell holding the opponent's id.
   On the board [[1, 0, 1], [1, 2, 2], [1, 0, 1]] with both heads on the
   centre, player 2's space is the centre and its three empty or player-2
   neighbours; removing the centre leaves three separate cells. Player 1's
   split count is therefore 3 and player 2's is 1, an articulation bonus of
   20 for player 1.
   */
  lemma SharedHeadSplits()
    ensures FindArticulationPoints([[1, 0, 1], [1, 2, 2], [1, 0, 1]], Pos(1, 1), 1) == 3
    ensures FindArticulationPoints([[1, 0, 1], [1, 2, 2], [1, 0, 1]], Pos(1, 1), 2) == 1
  {
    var b: Board := [[1, 0, 1], [1, 2, 2], [1, 0, 1]];
    var c := Pos(1, 1);
    OwnCellNeverSplits(b, c, 2);
    SharedHeadSpace();
    CrossArmsCount();
    ArticulationCountsComponents(b, c, 1);
  }

  /** On the shared-head board player 2's space without the centre is the three arms of the cross. */
  lemma SharedHeadSpace()
    ensures FirstHolding([[1, 0, 1], [1, 2, 2], [1, 0, 1]], OpponentOf(1)).Some?
    ensures SpaceWithout([[1, 0, 1], [1, 2, 2], [1, 0, 1]], Pos(1, 1), 1) == {Pos(0, 1), Pos(1, 2), Pos(2, 1)}
  {
    var b: Board := [[1, 0, 1], [1, 2, 2], [1, 0, 1]];
    SharedHeadFirst();
    SharedHeadCross();
    SpaceWithoutIs(b, Pos(1, 1), 1, Pos(1, 1), {Pos(0, 1), Pos(1, 1), Pos(1, 2), Pos(2, 1)}, {Pos(0, 1), Pos(1, 2), Pos(2, 1)});
  }

  /** On the shared-head board player 2's space, grown from the centre, is the whole cross. */
  lemma SharedHeadCross()
    ensures OpponentSpace([[1, 0, 1], [1, 2, 2], [1, 0, 1]], 2, Pos(1, 1)) == {Pos(0, 1), Pos(1, 1), Pos(1, 2), Pos(2, 1)}
  {
    SharedHeadOpen();
    CrossIsConnected();
  }

  /** Once the opponent's first cell and space are known, `SpaceWithout` is the space minus `start`. */
  lemma SpaceWithoutIs(b: Board, start: Pos, playerId: int, first: Pos, space: set<Pos>, rest: set<Pos>)
    requires FirstHolding(b, OpponentOf(playerId)) == Some(first)
    requires OpponentSpace(b, OpponentOf(playerId), first) == space
    requires space - {start} == rest
    ensures FirstHolding(b, OpponentOf(playerId)).Some?
    ensures SpaceWithout(b, start, playerId) == rest
  {
  }

  /** The centre cross is one component. */
  lemma CrossIsConnected()
    ensures var cross := {Pos(0, 1), Pos(1, 1), Pos(1, 2), Pos(2, 1)};
            ComponentOf(cross, Pos(1, 1)) == cross
  {
    var cross := {Pos(0, 1), Pos(1, 1), Pos(1, 2), Pos(2, 1)};
    forall q | q in cross
      ensures Connected(cross, Pos(1, 1), q)
    {
      if q == Pos(1, 1) {
        ConnectedRefl(cross, q);
      } else {
        assert IsPath([Pos(1, 1), q], cross);
      }
    }
  }

  /** Without its centre the cross falls into three single cells. */
  lemma CrossArmsCount()
    ensures NumComponents({Pos(0, 1), Pos(1, 2), Pos(2, 1)}) == 3
  {
    var arms := {Pos(0, 1), Pos(1, 2), Pos(2, 1)};
    ScatteredComponent(arms, Pos(0, 1));
    ScatteredComponent(arms, Pos(1, 2));
    ScatteredComponent(arms, Pos(2, 1));
    assert Classes(arms, arms) == {{Pos(0, 1)}, {Pos(1, 2)}, {Pos(2, 1)}};
  }

  /** On the shared-head board the first cell holding 2 is the centre. */
  lemma SharedHeadFirst()
    ensures FirstHolding([[1, 0, 1], [1, 2, 2], [1, 0, 1]], 2) == Some(Pos(1, 1))
  {
    var b: Board := [[1, 0, 1], [1, 2, 2], [1, 0, 1]];
    assert InBounds(b, Pos(1, 1)) && Cell(b, Pos(1, 1)) == 2;
    var f := FirstHolding(b, 2).value;
    assert AtOrAfter(Pos(1, 1), f.row, f.col);
  }

  /**
   After player 2's stale reply onto player 1's head on [[1, 2, 2], [0, 0, 0]],
   player 1 stands on (0, 1), a cell holding 2. Player 1's cells are connected,
   yet the flood for player 2's split count starts at (0, 0), while player 1's
   position is not even open to player 1.
   */
  lemma OverwrittenHeadFloodStart()
    ensures FirstHolding([[1, 2, 2], [0, 0, 0]], OpponentOf(2)) == Some(Pos(0, 0))
    ensures Holding([[1, 2, 2], [0, 0, 0]], 1) == {Pos(0, 0)}
    ensures Pos(0, 1) !in Open([[1, 2, 2], [0, 0, 0]], OpponentOf(2))
  {
    var b: Board := [[1, 2, 2], [0, 0, 0]];
    assert InBounds(b, Pos(0, 0)) && Cell(b, Pos(0, 0)) == 1;
    var f := FirstHolding(b, 1).value;
    assert AtOrAfter(Pos(0, 0), f.row, f.col);
    forall q | q in Holding(b, 1)
      ensures q == Pos(0, 0)
    {
      assert b[0] == [1, 2, 2] && b[1] == [0, 0, 0];
    }
  }

  /** On the shared-head board the cells open to player 2 are the centre cross. */
  lemma SharedHeadOpen()
    ensures Open([[1, 0, 1], [1, 2, 2], [1, 0, 1]], 2) == {Pos(0, 1), Pos(1, 1), Pos(1, 2), Pos(2, 1)}
  {
    var b: Board := [[1, 0, 1], [1, 2, 2], [1, 0, 1]];
    var cross := {Pos(0, 1), Pos(1, 1), Pos(1, 2), Pos(2, 1)};
    forall q | q in Open(b, 2)
      ensures q in cross
    {
      assert b[0] == [1, 0, 1] && b[1] == [1, 2, 2] && b[2] == [1, 0, 1];
    }
    forall q | q in cross
      ensures q in Open(b, 2)
    {
      assert InBounds(b, q);
    }
  }

  // ---------------------------------------------------------------------
  // Voronoi balance
  // ---------------------------------------------------------------------

  function Abs(x: int): nat { if x < 0 then -x else x }

  function Manhattan(p: Pos, q: Pos): nat
  {
    Abs(p.row - q.row) + Abs(p.col - q.col)
  }

  /** An empty cell strictly closer to `a` than to `c`. */
  predicate Closer(b: Board, q: Pos, a: Pos, c: Pos)
  {
    IsFree(b, q) && Manhattan(q, a) < Manhattan(q, c)
  }

  /** The vote of one cell: +1 closer to `p1`, -1 closer to `p2`, 0 on a tie or a taken cell. */
  function Vote(b: Board, q: Pos, p1: Pos, p2: Pos): int
  {
    if Closer(b, q, p1, p2) then 1 else if Closer(b, q, p2, p1) then -1 else 0
  }

  /** The cells of row `y`, columns `0 .. n - 1`, left to right. */
  function RowCells(y: int, n: nat): (r: seq<Pos>)
    ensures |r| == n
    ensures forall k :: 0 <= k < n ==> r[k] == Pos(y, k)
  {
    if n == 0 then [] else RowCells(y, n - 1) + [Pos(y, n - 1)]
  }

  /** The cells of rows `0 .. m - 1` of width `w` in row-major order: the order the tally visits them. */
  function GridCells(m: nat, w: nat): (r: seq<Pos>)
    ensures forall q :: q in r <==> 0 <= q.row < m && 0 <= q.col < w
    ensures forall i, j :: 0 <= i < j < |r| ==> !AtOrAfter(r[i], r[j].row, r[j].col)
  {
    if m == 0 then []
    else
      var prefix := GridCells(m - 1, w);
      var row := RowCells(m - 1, w);
      AppendRow(prefix, row, m - 1, w);
      prefix + row
  }

  /** Appending row `y` to the row-major cells of the rows above it gives the row-major cells of one more row. */
  lemma AppendRow(prefix: seq<Pos>, row: seq<Pos>, y: nat, w: nat)
    requires forall q :: q in prefix <==> 0 <= q.row < y && 0 <= q.col < w
    requires forall i, j :: 0 <= i < j < |prefix| ==> !AtOrAfter(prefix[i], prefix[j].row, prefix[j].col)
    requires |row| == w && forall k :: 0 <= k < w ==> row[k] == Pos(y, k)
    ensures forall q :: q in prefix + row <==> 0 <= q.row < y + 1 && 0 <= q.col < w
    ensures forall i, j :: 0 <= i < j < |prefix + row| ==> !AtOrAfter((prefix + row)[i], (prefix + row)[j].row, (prefix + row)[j].col)
  {
    forall q: Pos | 0 <= q.row < y + 1 && 0 <= q.col < w
      ensures q in prefix + row
    {
      if q.row == y {
        assert row[q.col] == q;
      }
    }
    forall i, j | 0 <= i < j < |prefix + row|
      ensures !AtOrAfter((prefix + row)[i], (prefix + row)[j].row, (prefix + row)[j].col)
    {
      if j >= |prefix| && i < |prefix| {
        assert prefix[i] in prefix;
      }
    }
  }

  /** Sum of the votes of `cells`, accumulated in list order. */
  function VoteSum(b: Board, cells: seq<Pos>, p1: Pos, p2: Pos): int
  {
    if |cells| == 0 then 0
    else VoteSum(b, cells[..|cells| - 1], p1, p2) + Vote(b, cells[|cells| - 1], p1, p2)
  }

  /** The Voronoi balance: the votes of every cell of the board, row by row. */
  function Voronoi(b: Board, p1: Pos, p2: Pos): int
  {
    VoteSum(b, GridCells(Height(b), Width(b)), p1, p2)
  }

  /** How many of `cells` are empty and strictly closer to `a` than to `c`. */
  function CountCloser(b: Board, cells: seq<Pos>, a: Pos, c: Pos): nat
  {
    if |cells| == 0 then 0
    else CountCloser(b, cells[..|cells| - 1], a, c) + (if Closer(b, cells[|cells| - 1], a, c) then 1 else 0)
  }

  /** How many of `cells` are empty. */
  function CountFree(b: Board, cells: seq<Pos>): nat
  {
    if |cells| == 0 then 0
    else CountFree(b, cells[..|cells| - 1]) + (if IsFree(b, cells[|cells| - 1]) then 1 else 0)
  }

  /** The number of empty cells of the board. */
  function EmptyCount(b: Board): nat
  {
    CountFree(b, GridCells(Height(b), Width(b)))
  }

  lemma {:induction false} VoteSumCounts(b: Board, cells: seq<Pos>, p1: Pos, p2: Pos)
    ensures VoteSum(b, cells, p1, p2) == CountCloser(b, cells, p1, p2) - CountCloser(b, cells, p2, p1)
    ensures CountCloser(b, cells, p1, p2) + CountCloser(b, cells, p2, p1) <= CountFree(b, cells)
  {
    if |cells| > 0 {
      VoteSumCounts(b, cells[..|cells| - 1], p1, p2);
    }
  }

  /** The tally is the number of empty cells closer to `p1` minus the number closer to `p2`. */
  lemma VoronoiCounts(b: Board, p1: Pos, p2: Pos)
    ensures var cells := GridCells(Height(b), Width(b));
            Voronoi(b, p1, p2) == CountCloser(b, cells, p1, p2) - CountCloser(b, cells, p2, p1)
  {
    VoteSumCounts(b, GridCells(Height(b), Width(b)), p1, p2);
  }

  /** The balance never exceeds the number of empty cells in either direction. */
  lemma VoronoiBounded(b: Board, p1: Pos, p2: Pos)
    ensures -(EmptyCount(b) as int) <= Voronoi(b, p1, p2) <= EmptyCount(b)
  {
    VoteSumCounts(b, GridCells(Height(b), Width(b)), p1, p2);
  }

  /** Exchanging the two positions negates the balance. */
  lemma VoronoiSwap(b: Board, p1: Pos, p2: Pos)
    ensures Voronoi(b, p2, p1) == -Voronoi(b, p1, p2)
  {
    VoronoiCounts(b, p1, p2);
    VoronoiCounts(b, p2, p1);
  }

  // ---------------------------------------------------------------------
  // Combined score
  // ---------------------------------------------------------------------

  /**
   The advanced evaluation: reachable-space difference, ten times the
   difference in split counts, and half the Voronoi balance. `fill` is the
   reachable-area count of the game base, which is not part of this model.
   */
  function AdvancedEvaluate(fill: (Board, Pos, int) -> int, b: Board, p1: Pos, p2: Pos): real
  {
    var spaceDiff := fill(b, p1, 1) - fill(b, p2, 2);
    var articulationBonus := (FindArticulationPoints(b, p1, 1) - FindArticulationPoints(b, p2, 2)) * 10;
    (spaceDiff + articulationBonus) as real + Voronoi(b, p1, p2) as real * 0.5
  }

  /**
   Called with the players' own positions, which hold their ids, the split
   counts are both 1: the score reduces to space difference plus half the
   Voronoi balance, and lies within half the empty-cell count of the space
   difference.
   */
  lemma AdvancedEvaluateOnPlayerCells(fill: (Board, Pos, int) -> int, b: Board, p1: Pos, p2: Pos)
    requires InBounds(b, p1) && Cell(b, p1) == 1
    requires InBounds(b, p2) && Cell(b, p2) == 2
    ensures var spaceDiff := (fill(b, p1, 1) - fill(b, p2, 2)) as real;
            var r := AdvancedEvaluate(fill, b, p1, p2);
            && r == spaceDiff + Voronoi(b, p1, p2) as real * 0.5
            && spaceDiff - EmptyCount(b) as real * 0.5 <= r <= spaceDiff + EmptyCount(b) as real * 0.5
  {
    OwnCellNeverSplits(b, p1, 1);
    OwnCellNeverSplits(b, p2, 2);
    VoronoiBounded(b, p1, p2);
  }
}
